=== FILE: README.md ===
# Form wizard, submission endpoint, scoped Bootstrap and form seeding

A Dafny model of the core of a Payload CMS site whose visitors fill in
forms. It covers four pieces:

- **The multi-step wizard (`FormStepper`).**
  - Each step's data is stored at the step's index.
  - The wizard moves forward until the last step.
  - On the last step it posts `{formId, data}` to the submission endpoint.
    `data` is the single step's object for a one-step form, and the array of
    all steps otherwise.
  - It then either completes or shows an error.
  - Back moves one step back.
  - The progress row shows a dot, a label and a connector for each step.
- **The submission endpoint (`SubmitRoute`).**
  - `POST` checks the request in a fixed order: missing parameters, an
    unreadable id, an unknown form, then a form that is not published.
  - It derives the submitter e-mail, the client address and the user agent.
  - It drops the rendering widget's `submit` and `cancel` keys.
  - It hands one record to the store and answers with the new record's id.
  - Every failure maps to a fixed status and message.
  - `OPTIONS` answers the CORS preflight.
- **The scoped Bootstrap provider (`BootstrapProvider`).**
  - Every selector group of the Bootstrap style sheet is rewritten so that
    each comma-separated part is nested under seven container classes.
  - At-rules, already scoped groups and pseudo selectors are left alone.
  - A global instance counter decides when the injected style elements are
    removed again.
- **The seed script (`SeedForms`).**
  - The sample form definitions are split by slug into forms to update and
    forms to create.
  - The script updates the first group in place, creates the second, and
    reports the counts.

The document store, the network and the DOM are not modelled. Their
outcomes are parameters:

- `Lookup` and `Creation` stand for what `findByID` and `create` returned.
- `Outcome` stands for how the wizard's `fetch` ended.
- `StoredForm` is the list of documents the seed script's slug query found.

JavaScript semantics the model writes out explicitly, in `Strings`,
`Numbers` and `Json`:

- truthiness;
- `String.prototype.trim` with ECMAScript white space;
- `split` on one character and `join`;
- `parseInt(s, 10)`, which reads a digit prefix after white space and a
  sign;
- whether `Number` of a string is NaN, and of an array through its
  `join(',')` text, as `isNaN` decides it;
- object spread of an array or a string, which produces decimal index keys;
- array holes, which `JSON.stringify` writes as `null`.

The style sheet rewrite `cssText.replace(/([^{}]+)\{/g, f)` is modelled as
follows:

- `Pieces` cuts the text into single braces, brace-free runs before a `{`
  (each is one match of the pattern), and other brace-free runs.
- `Pieces` is proved to be the unique well-formed tokenisation, and
  rendering it gives back the input.
- Each match is then replaced by what the callback computes.

## Model

| member | source | states |
|---|---|---|
| FormStepper.Write | src/components/FormStepper.tsx:38-39 | Writing step data at index `i` of a copy of the array sets entry `i`. It leaves every other existing entry unchanged. When `i` is past the end, it extends the array with holes up to `i`. |
| FormStepper.SubmitStepStores | src/components/FormStepper.tsx:37-40 | Submitting a step stores its data at the current index. The rest of the collected array is unchanged, as are the completion flag and the error. |
| FormStepper.SubmitStepMoves | src/components/FormStepper.tsx:42-55 | Before the last step a submission advances exactly one step and sends nothing. On the last step it stays put and sends one request with the form id and the payload. |
| FormStepper.FinalPayload | src/components/FormStepper.tsx:51-54 | On the last step the request carries the step's own object when the form has one step. Otherwise it carries an array of all `n` entries: the last is the submitted data and the others are the data collected earlier. |
| FormStepper.PayloadFlatIffSingleStep | src/components/FormStepper.tsx:53 | The payload is the bare first entry if and only if the form has exactly one step. |
| FormStepper.InitialInv | src/components/FormStepper.tsx:32-35 | The initial state (step 0, no data, not complete, no error) satisfies the wizard invariant for any form with at least one step. |
| FormStepper.StepInv | src/components/FormStepper.tsx:37-74 | Every event keeps the step index below the number of steps. It keeps the collected data no longer than the steps and at least as long as the index, with no holes. |
| FormStepper.RunInv | src/components/FormStepper.tsx:37-74 | The invariant holds after any sequence of events. |
| FormStepper.ReachableInv | src/components/FormStepper.tsx:32-74 | In every state reachable from the initial one, the current index is in range, at most `n` entries are collected, every earlier step has an entry and no collected entry is a hole, so the final payload never contains `null`. |
| FormStepper.SettleFailure | src/components/FormStepper.tsx:57-65 | A failed response keeps the step, the data and the completion flag. A non-empty `error` string from the server becomes the shown error; a missing or empty one becomes "Submission failed"; a thrown error shows its message. |
| FormStepper.StepKeepsError | src/components/FormStepper.tsx:35 | Once an error is shown, no event clears it: nothing sets it back to null. |
| FormStepper.RunKeepsError | src/components/FormStepper.tsx:35 | An error, once shown, stays through any sequence of events. |
| FormStepper.StepCompletion | src/components/FormStepper.tsx:62 | Completion is never undone, and the only event that completes the wizard is an accepted response. |
| FormStepper.RunCompletion | src/components/FormStepper.tsx:62 | Without an accepted response no sequence of events completes the wizard. |
| FormStepper.BackMoves | src/components/FormStepper.tsx:70-74 | Back decrements the step index when it is positive, stays at 0 otherwise, and changes nothing else. |
| FormStepper.BackVisibleIffEffective | src/components/FormStepper.tsx:76-282 | Under the invariant, the Back button (line 282) is shown exactly when the form is not complete and pressing it changes the state; the completion screen returned at line 76 never shows it. |
| FormStepper.FinalExchangeCompletes | src/components/FormStepper.tsx:37-62 | The handler's own path to completion: on the last step one request carries the form id and the payload of all `n` entries, none missing, with the submitted data last; the ok response to it completes the form. |
| FormStepper.ResubmitSendsAgain | src/components/FormStepper.tsx:45-55 | There is no guard against resubmission: a second submission on the last step sends a second request. |
| FormStepper.RouteReplyReachesWizard | src/components/FormStepper.tsx:57-65 | End to end with the endpoint: the wizard completes exactly when the endpoint stored a record. Otherwise it shows the endpoint's own error text, and nothing else changes. |
| FormStepper.RequestHasParameters | src/components/FormStepper.tsx:51-54 | A request the wizard sends with a non-empty form id and object step data always passes the endpoint's missing-parameter check. |
| FormStepper.ProgressShape | src/components/FormStepper.tsx:242-251 | A step's dot is active at the current index, completed before it and pending after it. The ✓ label replaces the number exactly on completed steps. A connector follows every step but the last and is completed exactly before the current step. |
| FormStepper.ProgressCounts | src/components/FormStepper.tsx:238-255 | On a multi-step form the row has one indicator per step. Exactly one dot is active; `current` dots and connectors are completed and the rest are pending. |
| SubmitRoute.PostWithoutStore | src/app/api/forms/submit/route.ts:6-7 | When `getPayload` throws, every request, well formed or not, gets the 500 "Failed to submit form" reply, and nothing is looked up or stored. |
| SubmitRoute.PostMissingParameters | src/app/api/forms/submit/route.ts:12-17 | Once `getPayload` has returned, a falsy `formId` or `data` is answered with 400 "Missing formId or data" before anything else is examined. |
| SubmitRoute.PostInvalidId | src/app/api/forms/submit/route.ts:20-27 | A string id that does not start (after white space and a sign) with a digit is answered with 400 "Invalid form ID". |
| SubmitRoute.ResolveFormId | src/app/api/forms/submit/route.ts:20-22 | A string id is rejected exactly when `parseInt` gives NaN, and otherwise becomes the number `parseInt` read. Any other value is passed on unchanged when accepted: a number always, an object never, an array exactly when `Number` of its joined text is a number. |
| SubmitRoute.ResolveFormIdSigned | src/app/api/forms/submit/route.ts:20 | A signed or zero-padded string id after white space is read as the signed value of its digits, and any non-digit tail is ignored. |
| SubmitRoute.ResolveArrayId | src/app/api/forms/submit/route.ts:20-22 | `[]` and `[null]` are handed to `findByID`. An array of two or more elements is rejected, and so is one holding a boolean or an object. A one-string array is accepted exactly when `Number` reads the string as a number. |
| SubmitRoute.ResolveArrayOfNumeral | src/app/api/forms/submit/route.ts:20-22 | An array holding one numeral string, signed or not and padded with white space, is handed to `findByID` unchanged. |
| SubmitRoute.ResolveArrayWithComma | src/app/api/forms/submit/route.ts:22 | An array holding one string that contains a comma is rejected as NaN. |
| SubmitRoute.JoinWords | src/app/api/forms/submit/route.ts:22 | The texts `join` writes for `true`, `false` and an object are not numbers, and the empty text of `null` is 0. |
| SubmitRoute.ResolveFormIdPrefix | src/app/api/forms/submit/route.ts:20 | A string id is read up to its first non-digit: leading white space and trailing text are ignored. |
| SubmitRoute.PostRejectsBeforeLookup | src/app/api/forms/submit/route.ts:8-27 | A malformed request is answered (400, or 500 for a body that is not JSON) without a lookup and without storing anything. The answer does not depend on what `findByID` or `create` would have done. |
| SubmitRoute.PostLookupOrder | src/app/api/forms/submit/route.ts:30-47 | For a well-formed request, a failing lookup is 500, a missing form is 404 and a draft form is 400. Only a published form is stored. |
| SubmitRoute.PostStoresOnlyValid | src/app/api/forms/submit/route.ts:7-85 | A record is stored if and only if `getPayload` returned, the request is well formed, the form is published and `create` returns. |
| SubmitRoute.PostStoredRecord | src/app/api/forms/submit/route.ts:74-91 | The stored record has the resolved id, the cleaned data, the submitter e-mail, the first forwarded address and the cut user agent. The reply is 200 with `success`, the new `submissionId` and the success message. |
| SubmitRoute.PostFailureReply | src/app/api/forms/submit/route.ts:6-98 | Every reply without a stored record has status 400, 404 or 500 and an `error` string drawn from the five fixed messages. |
| SubmitRoute.ErrorReply | src/app/api/forms/submit/route.ts:92-98 | An error reply carries its status and its message under `error`, and no `success` member. |
| SubmitRoute.SuccessReply | src/app/api/forms/submit/route.ts:87-91 | The success reply has status 200 with `success: true`, the submission id and the fixed message, and no `error` member. |
| SubmitRoute.FirstEmail | src/app/api/forms/submit/route.ts:53-59 | The chosen e-mail is the value of the first candidate key, in order, that holds a non-empty string. There is none exactly when no candidate does. |
| SubmitRoute.SubmitterEmail | src/app/api/forms/submit/route.ts:50-60 | Only an object is searched for an e-mail. A found e-mail is never empty. |
| SubmitRoute.ChosenAddress | src/app/api/forms/submit/route.ts:63-65 | `x-forwarded-for` is used when present and non-empty, then `x-real-ip`, then "unknown". |
| SubmitRoute.ClientIp | src/app/api/forms/submit/route.ts:81 | The stored address contains no comma and carries no surrounding white space. |
| SubmitRoute.ClientIpFirstToken | src/app/api/forms/submit/route.ts:81 | The stored address is the chosen header's text before its first comma, trimmed. |
| SubmitRoute.ClientAgent | src/app/api/forms/submit/route.ts:82 | The stored user agent is the whole header when it has at most 500 characters, and exactly its first 500 characters otherwise. It is "unknown" when the header is absent or empty. |
| SubmitRoute.ClientAgentDropsTail | src/app/api/forms/submit/route.ts:82 | The stored agent followed by the dropped characters gives the header back, and nothing is dropped unless the header is longer than 500 characters. |
| SubmitRoute.IndexedMembers | src/app/api/forms/submit/route.ts:69 | Spreading an array gives one member per element under its decimal index, with distinct keys. |
| SubmitRoute.WithoutKeysGet | src/app/api/forms/submit/route.ts:70-71 | After the deletions a deleted key reads as undefined and every other key reads as before. |
| SubmitRoute.CleanKeepsData | src/app/api/forms/submit/route.ts:69-71 | The cleaned data never has `submit` or `cancel`. For an object every other key reads as before. An array becomes an object keyed by index with one member per element. Keys stay distinct. |
| SubmitRoute.Options | src/app/api/forms/submit/route.ts:103-112 | The preflight reply is 200, allows any origin and allows the `Content-Type` header. |
| SubmitRoute.OptionsAllowsPost | src/app/api/forms/submit/route.ts:108 | Read as a comma-separated list, the allowed methods are exactly `POST` and then `OPTIONS`. |
| BootstrapProvider.Pieces | src/components/admin/BootstrapProvider.tsx:48 | The matches of `/([^{}]+)\{/g` as a tokenisation: rendering the pieces gives back the style sheet. |
| BootstrapProvider.PiecesWellFormed | src/components/admin/BootstrapProvider.tsx:48 | Every group piece is a non-empty brace-free run directly followed by `{`, and every other run is maximal. |
| BootstrapProvider.PiecesUnique | src/components/admin/BootstrapProvider.tsx:48 | Any well-formed tokenisation is the one `Pieces` computes, so the matches are determined by the text. |
| BootstrapProvider.GroupKept | src/components/admin/BootstrapProvider.tsx:49-67 | A group that is empty, starts with `@`, contains `@` or names a marker class is returned unchanged. |
| BootstrapProvider.PartRewritten | src/components/admin/BootstrapProvider.tsx:70-87 | In the corrected rewrite each part is trimmed. Empty parts and parts starting with `@` or `:` are kept as they are; `.nav`/`nav` parts are kept unscoped; all others are nested under the containers. |
| BootstrapProvider.GroupRewritten | src/components/admin/BootstrapProvider.tsx:70-90 | A rewritten group is its trimmed parts, each rewritten on its own, in order. |
| BootstrapProvider.ScopedSelectorParts | src/components/admin/BootstrapProvider.tsx:87 | A scoped part, read back as a comma-separated list, is exactly seven selectors: the part under each container, in order. |
| BootstrapProvider.ScopeGroupSettles | src/components/admin/BootstrapProvider.tsx:57-62 | A group with at least one scoped part now names `.bootstrap-scope`, so a second pass returns it unchanged. |
| BootstrapProvider.MarkedGroupKept | src/components/admin/BootstrapProvider.tsx:57-62 | Selector text that names `.bootstrap-scope` is left unchanged by either rule for `.nav` parts. |
| BootstrapProvider.GroupCounts | src/components/admin/BootstrapProvider.tsx:90 | In the corrected rewrite, a rewritten group contains exactly one `{` and no `}`. |
| BootstrapProvider.ScopeKeepsBraces | src/components/admin/BootstrapProvider.tsx:47-91 | The corrected rewrite keeps the number of `{` and of `}` in the style sheet, so rule bodies stay balanced. |
| BootstrapProvider.AsWrittenWithoutNav | src/components/admin/BootstrapProvider.tsx:80-83 | Without a `.nav` or `nav` part, the source's rewrite and the corrected one agree on a group. |
| BootstrapProvider.AsWrittenKeepsBracesWithoutNav | src/components/admin/BootstrapProvider.tsx:47-91 | On a style sheet with no `.nav` part, the source's rewrite equals the corrected one and keeps the brace counts. |
| BootstrapProvider.GroupRewrittenAsWritten | src/components/admin/BootstrapProvider.tsx:70-90 | As written, a rewritten group is its trimmed parts rewritten one by one, joined by ", " and followed by " {". A `.nav` or `nav` part at any position, also in a group of several parts, becomes the whole match, brace included. |
| BootstrapProvider.NavGroupAsWritten | src/components/admin/BootstrapProvider.tsx:80-83 | As written, a group whose text trims to `.nav` or `nav` becomes the whole match followed by " {": the selector text, then `{ {`. |
| BootstrapProvider.NavGroupCorrected | src/components/admin/BootstrapProvider.tsx:80-83 | The corrected rewrite keeps such a group as the trimmed part followed by " {". |
| BootstrapProvider.NavRuleGainsBrace | src/components/admin/BootstrapProvider.tsx:80-83 | As written, `.nav{}` becomes `.nav{ {}`, which has one more `{` than the input. The corrected rewrite gives `.nav {}`. |
| BootstrapProvider.Mount | src/components/admin/BootstrapProvider.tsx:25-28 | A missing, zero or NaN count restarts at 0 before the increment. Otherwise the count goes up by one. |
| BootstrapProvider.Unmount | src/components/admin/BootstrapProvider.tsx:146-161 | The style elements are removed exactly when the count was at most 1, and the count is then reset to 0. The count is never left negative. |
| BootstrapProvider.ReplayCounts | src/components/admin/BootstrapProvider.tsx:25-161 | When every unmount follows its mount, the counter equals the number of mounted providers. |
| BootstrapProvider.RemovesOnLastUnmount | src/components/admin/BootstrapProvider.tsx:148-161 | When every unmount follows its mount, the styles are removed exactly when the last mounted provider unmounts. |
| BootstrapProvider.ReplayNonNegative | src/components/admin/BootstrapProvider.tsx:146-161 | After any sequence of mounts and unmounts the counter is never negative. |
| SeedForms.SampleForms | scripts/seed-forms.ts:11-1085 | There are seven sample forms, all published. |
| SeedForms.SampleSlugsDistinct | scripts/seed-forms.ts:11-1085 | The seven sample slugs are pairwise distinct, as the collection's unique slug requires. |
| SeedForms.ExistingSlugs | scripts/seed-forms.ts:1104 | A slug is in the existing set exactly when some found document has it. |
| SeedForms.Select | scripts/seed-forms.ts:1105-1106 | A sample is selected exactly when its slug's membership in the existing set matches the filter. |
| SeedForms.Partition | scripts/seed-forms.ts:1105-1106 | The new and update lists together are a permutation of the samples. |
| SeedForms.SelectKeepsOrder | scripts/seed-forms.ts:1105-1106 | Both lists keep the samples' relative order. |
| SeedForms.Membership | scripts/seed-forms.ts:1104-1106 | A sample is updated exactly when a document with its slug was found, and created exactly when none was. |
| SeedForms.FindBySlug | scripts/seed-forms.ts:1117 | The lookup returns the first fetched document with the form's slug, so no earlier document has it. It returns nothing exactly when no document has the slug. |
| SeedForms.UpdatesTargetSameSlug | scripts/seed-forms.ts:1115-1123 | Every form to update finds its document, so no update is skipped. Each update targets a document with the form's own slug. |
| SeedForms.PlanCoversSamples | scripts/seed-forms.ts:1113-1145 | The run makes one call per sample: updates of the existing slugs in sample order, then creates of the rest in sample order. |
| SeedForms.SummaryCounts | scripts/seed-forms.ts:1146-1158 | The printed counts add up to the number of samples. "All forms already exist" is printed exactly when there are no samples at all. |
| SeedForms.SeedNeverReportsAllExist | scripts/seed-forms.ts:1146-1147 | With the script's own seven samples the "all forms already exist" branch never runs. |
| Numbers.ParseInt | src/app/api/forms/submit/route.ts:20 | `parseInt(s, 10)` is NaN exactly when, after leading white space, the text does not start with a digit or a sign followed by a digit. |
| Numbers.ParseIntReadsPrefix | src/app/api/forms/submit/route.ts:20 | `parseInt` reads the leading digit run after white space and an optional sign, negated for `-`, and ignores the rest. |
| Numbers.CommaNotNumeric | src/app/api/forms/submit/route.ts:22 | `Number` of a text that contains a comma anywhere is NaN. |
| Numbers.NumeralNumeric | src/app/api/forms/submit/route.ts:22 | `Number` of a digit run, with an optional sign and white space around it, is a number. |
| Numbers.WordNotNumeric | src/app/api/forms/submit/route.ts:22 | `Number` of a trimmed text starting with neither a digit, a point, a sign nor `I` is NaN. |
| Numbers.ParseIntDecimal | src/app/api/forms/submit/route.ts:20 | A number's decimal text parses back to the number. |
| Strings.Split | src/app/api/forms/submit/route.ts:81 | Splitting gives at least one part, no part contains the separator, and joining the parts with it gives the text back. |

## Left out

- The document store, `getPayload`, `console` output and `process.exit` are not modelled. What `findByID`, `create`, `find` and `update` returned are parameters.
- Whether `getPayload` returned is the `ready` input of `SubmitRoute.Post`. Why it might throw is not modelled.
- `fetch`, `response.json()` and the DOM insertion of style elements are not modelled. The wizard's request outcome and the provider's fetched style sheet are inputs. The second fetch of the Form.io style sheet and its unscoped insertion are left out.
- The appended block of extra scoped styles after the rewritten sheet is left out. It is a constant suffix.
- SubmitRoute.ResolveFormId: an object `formId` with its own `toString` member, or a one-element array holding such an object, makes the `isNaN` coercion throw. The source then answers 500; the model rejects it as NaN with 400. `JSON.parse` never produces a function, so such a member always makes the coercion fail.
- Strings are sequences of code points, not UTF-16 units. `substring(0, 500)` therefore counts characters, and a surrogate pair counts once.
- `parseInt` is modelled on unbounded integers. Precision loss above 2^53 is not modelled.
- `Json.Get` returns the first member with a key, while `JSON.parse` keeps the last of duplicate keys. The model assumes that request bodies and form data have distinct keys, as any object `JSON.parse` builds does. `Post` does not require it.
- JavaScript's own-key ordering (integer-like keys first) for spread objects is not modelled. Members keep their source order.
- An `error` member that is not a string (an object, a number) is treated as missing by the wizard. JavaScript would stringify it into the error message.
- The seed script's `limit: 100` on the slug query is not modelled. The seven slugs are far below it.
- SeedForms.Summary: the report counts the planned calls. A call that throws is logged and skipped without changing the counts, and this matches the source. The form schemas inside the samples are left out.
- The `onComplete` callback, the content of the completion screen and the FormRenderer widget are not modelled; only the fact that the completion screen replaces the wizard (no Back button) is, in `BackVisible`. The widget's `onError` is the `RendererError` event. After completion the reducer itself does not check `isComplete`.
- The exact class names, styling and the `disabled` attribute of the Back button are rendering details and are left out.

## Findings

| source | as written | input that shows it | evidently intended | confidence | as-written member | corrected member |
|---|---|---|---|---|---|---|
| src/components/admin/BootstrapProvider.tsx:80-83 | a part equal to `.nav` or `nav` makes the per-part callback return the whole match (selector text and `{`), which is then joined and followed by " {" | the style sheet `.nav{}` becomes `.nav{ {}`, with an extra `{` that leaves the rest of the sheet unbalanced | keep that part unscoped, as the comment says: return the trimmed part | not executed | BootstrapProvider.NavRuleGainsBrace | BootstrapProvider.ScopeKeepsBraces |

=== FILE: bootstrap_provider.dfy ===
/** The provider that confines Bootstrap's style sheet to the form builder.
    Two pure pieces are modelled: the rewrite that prefixes every rule's
    selectors with the builder's container classes, and the page-wide count
    of mounted providers that decides when the shared style elements are
    removed. Fetching the style sheets and inserting them into the document
    are not modelled. */
module BootstrapProvider {
  import opened Strings

  /** The containers every scoped selector is nested under, in the order
      the rewrite lists them. */
  const Containers: seq<string> := [
    ".bootstrap-scope", ".formio-modal", ".formio-dialog", ".formio-edit-form",
    ".formio-builder-dialog", ".formio-builder", ".formbuilder"]

  /** The marker classes whose presence means a rule is already scoped. */
  const ScopeMarkers: seq<string> := [".bootstrap-scope", ".formio-modal", ".formio-builder"]

  predicate IsBrace(c: char) {
    c == '{' || c == '}'
  }

  predicate NoBraces(s: string) {
    '{' !in s && '}' !in s
  }

  // Reading a style sheet the way `/([^{}]+)\{/g` does

  /** A piece of a style sheet: a single brace, a maximal brace-free run
      that is not followed by '{', or a selector group, that is a maximal
      brace-free run together with the '{' that follows it (one match of
      the pattern, `selector` being its capture). */
  datatype Piece = Brace(c: char) | Plain(text: string) | Group(selector: string)

  function PieceText(p: Piece): string {
    match p
    case Brace(c) => [c]
    case Plain(t) => t
    case Group(sel) => sel + "{"
  }

  function Render(ps: seq<Piece>): string {
    if ps == [] then "" else PieceText(ps[0]) + Render(ps[1..])
  }

  /** The length of the brace-free run `s` starts with. */
  function RunLength(s: string): (k: nat)
    ensures k <= |s| && NoBraces(s[..k])
    ensures k == |s| || IsBrace(s[k])
  {
    if s == [] || IsBrace(s[0]) then 0
    else
      var k := RunLength(s[1..]);
      assert s[..k + 1] == [s[0]] + s[1..][..k];
      k + 1
  }

  /** What a tokenisation into pieces must look like: braces are braces,
      runs are non-empty and brace-free, and a run that is not a group is
      maximal, so it is followed by '}' or by nothing. */
  ghost predicate WellFormed(ps: seq<Piece>) {
    && (forall i :: 0 <= i < |ps| && ps[i].Brace? ==> IsBrace(ps[i].c))
    && (forall i :: 0 <= i < |ps| && ps[i].Plain? ==> ps[i].text != [] && NoBraces(ps[i].text))
    && (forall i :: 0 <= i < |ps| && ps[i].Group? ==> ps[i].selector != [] && NoBraces(ps[i].selector))
    && (forall i :: 0 <= i < |ps| - 1 && ps[i].Plain? ==> ps[i + 1] == Brace('}'))
  }

  /** The style sheet cut into pieces, left to right. Rendering the pieces
      gives back the style sheet. */
  function Pieces(css: string): (ps: seq<Piece>)
    ensures Render(ps) == css
    ensures css != [] && IsBrace(css[0]) ==> ps != [] && ps[0] == Brace(css[0])
    decreases |css|
  {
    if css == [] then []
    else if IsBrace(css[0]) then
      [Brace(css[0])] + Pieces(css[1..])
    else
      var k := RunLength(css);
      if k < |css| && css[k] == '{' then
        assert css == css[..k] + "{" + css[k + 1..];
        [Group(css[..k])] + Pieces(css[k + 1..])
      else
        assert css == css[..k] + css[k..];
        [Plain(css[..k])] + Pieces(css[k..])
  }

  lemma {:induction false} PiecesWellFormed(css: string)
    ensures WellFormed(Pieces(css))
    decreases |css|
  {
    if css != [] {
      if IsBrace(css[0]) {
        PiecesWellFormed(css[1..]);
        WellFormedCons(Brace(css[0]), Pieces(css[1..]));
      } else {
        var k := RunLength(css);
        if k < |css| && css[k] == '{' {
          PiecesWellFormed(css[k + 1..]);
          WellFormedCons(Group(css[..k]), Pieces(css[k + 1..]));
        } else {
          PiecesWellFormed(css[k..]);
          WellFormedCons(Plain(css[..k]), Pieces(css[k..]));
        }
      }
    }
  }

  /** A well-formed piece in front of a well-formed tokenisation; a plain
      run must be followed by '}' or by nothing. */
  lemma WellFormedCons(p: Piece, rest: seq<Piece>)
    requires WellFormed(rest)
    requires p.Brace? ==> IsBrace(p.c)
    requires p.Plain? ==> p.text != [] && NoBraces(p.text) && (rest != [] ==> rest[0] == Brace('}'))
    requires p.Group? ==> p.selector != [] && NoBraces(p.selector)
    ensures WellFormed([p] + rest)
  {
    var ps := [p] + rest;
    assert forall i :: 1 <= i < |ps| ==> ps[i] == rest[i - 1];
  }

  lemma RunLengthOf(t: string, u: string)
    requires NoBraces(t)
    requires u == [] || IsBrace(u[0])
    ensures RunLength(t + u) == |t|
  {
    assert (t + u)[..|t|] == t;
  }

  lemma PiecesOfBrace(c: char, r: string)
    requires IsBrace(c)
    ensures Pieces([c] + r) == [Brace(c)] + Pieces(r)
  {
    assert ([c] + r)[1..] == r;
  }

  lemma PiecesOfGroup(sel: string, r: string)
    requires sel != [] && NoBraces(sel)
    ensures Pieces(sel + "{" + r) == [Group(sel)] + Pieces(r)
  {
    var css := sel + "{" + r;
    assert css == sel + ("{" + r);
    RunLengthOf(sel, "{" + r);
    assert css[0] == sel[0];
    assert css[..|sel|] == sel;
    assert css[|sel|] == '{';
    assert css[|sel| + 1..] == r;
  }

  lemma PiecesOfPlain(t: string, r: string)
    requires t != [] && NoBraces(t)
    requires r == [] || r[0] == '}'
    ensures Pieces(t + r) == [Plain(t)] + Pieces(r)
  {
    var css := t + r;
    RunLengthOf(t, r);
    assert css[0] == t[0];
    assert css[..|t|] == t;
    assert css[|t|..] == r;
  }

  lemma WellFormedTail(ps: seq<Piece>)
    requires WellFormed(ps) && ps != []
    ensures WellFormed(ps[1..])
  {
    var rest := ps[1..];
    forall i | 0 <= i < |rest| - 1 && rest[i].Plain?
      ensures rest[i + 1] == Brace('}')
    {
      assert ps[i + 1].Plain?;
    }
  }

  /** The pieces are the only well-formed tokenisation of a style sheet,
      so the groups are exactly the matches of the pattern. */
  lemma {:induction false} PiecesUnique(ps: seq<Piece>)
    requires WellFormed(ps)
    ensures Pieces(Render(ps)) == ps
    decreases |ps|
  {
    if ps != [] {
      var rest := ps[1..];
      WellFormedTail(ps);
      PiecesUnique(rest);
      assert Render(ps) == PieceText(ps[0]) + Render(rest);
      match ps[0]
      case Brace(c) =>
        PiecesOfBrace(c, Render(rest));
      case Group(sel) =>
        PiecesOfGroup(sel, Render(rest));
      case Plain(t) =>
        if rest != [] {
          assert ps[1] == Brace('}');
          assert Render(rest) == "}" + Render(rest[1..]);
        }
        PiecesOfPlain(t, Render(rest));
      assert ps == [ps[0]] + rest;
    }
  }

  // Rewriting one selector group

  /** How a part equal to `.nav` or `nav` is treated: the source returns
      the whole match, brace included; the corrected rewrite keeps the part
      as it is, unscoped. */
  datatype NavRule = ReturnMatch | KeepPart

  /** `q` nested under each container, in order. */
  function UnderContainers(q: string): (sels: seq<string>)
    ensures |sels| == |Containers|
    ensures forall k :: 0 <= k < |Containers| ==> sels[k] == Containers[k] + " " + q
  {
    seq(|Containers|, k requires 0 <= k < |Containers| => Containers[k] + " " + q)
  }

  /** One selector nested under each container, as one selector list. */
  function ScopedSelector(q: string): string {
    Join(UnderContainers(q), ", ")
  }

  /** A trimmed part the rewrite nests under the containers. */
  predicate Scopable(q: string) {
    q != "" && !StartsWith(q, "@") && !StartsWith(q, ":") && q != ".nav" && q != "nav"
  }

  /** The rewrite of one comma-separated part of a group's selector text. */
  function ScopePartWith(rule: NavRule, sel: string, part: string): string {
    var trimmed := Trim(part);
    if trimmed == "" || StartsWith(trimmed, "@") || StartsWith(trimmed, ":") then trimmed
    else if trimmed == ".nav" || trimmed == "nav" then
      (if rule == ReturnMatch then sel + "{" else trimmed)
    else ScopedSelector(trimmed)
  }

  /** The trimmed selector text marks a group the rewrite changes: not an
      at-rule, not empty, not already scoped, no '@' anywhere. */
  predicate Rewrites(t: string) {
    && !StartsWith(t, "@")
    && t != ""
    && !Contains(t, ".bootstrap-scope") && !Contains(t, ".formio-modal") && !Contains(t, ".formio-builder")
    && '@' !in t
  }

  /** The replacement for one match of the pattern, `sel` being the
      captured selector text. */
  function ScopeGroupWith(rule: NavRule, sel: string): string {
    var t := Trim(sel);
    if !Rewrites(t) then sel + "{"
    else
      Join(ScopeParts(rule, sel, Split(t, ',')), ", ") + " {"
  }

  /** Every part rewritten on its own. */
  function ScopeParts(rule: NavRule, sel: string, parts: seq<string>): (out: seq<string>)
    ensures |out| == |parts|
    ensures forall k :: 0 <= k < |parts| ==> out[k] == ScopePartWith(rule, sel, parts[k])
  {
    seq(|parts|, k requires 0 <= k < |parts| => ScopePartWith(rule, sel, parts[k]))
  }

  /** The replacement as the source computes it. */
  function ScopeGroupAsWritten(sel: string): string {
    ScopeGroupWith(ReturnMatch, sel)
  }

  /** The replacement with `.nav` parts kept unscoped. */
  function ScopeGroup(sel: string): string {
    ScopeGroupWith(KeepPart, sel)
  }

  /** At-rules, groups with '@' anywhere, empty groups and groups that
      already name a marker class are returned as they matched. */
  lemma GroupKept(rule: NavRule, sel: string)
    requires var t := Trim(sel);
             || StartsWith(t, "@") || '@' in t || t == ""
             || Contains(t, ".bootstrap-scope") || Contains(t, ".formio-modal") || Contains(t, ".formio-builder")
    ensures ScopeGroupWith(rule, sel) == sel + "{"
  {
  }

  /** The trimmed parts of a rewritten group, in order. */
  function Parts(sel: string): seq<string> {
    var parts := Split(Trim(sel), ',');
    seq(|parts|, k requires 0 <= k < |parts| => Trim(parts[k]))
  }

  /** The corrected rewrite of one trimmed part: scopable parts become the
      seven scoped selectors, every other part is kept as it is. */
  function RewritePart(q: string): string {
    if Scopable(q) then ScopedSelector(q) else q
  }

  /** A rewritten group is its parts, each trimmed and rewritten on its
      own, joined by ", " and followed by " {". */
  lemma GroupRewritten(sel: string)
    requires Rewrites(Trim(sel))
    ensures var out := ScopeParts(KeepPart, sel, Split(Trim(sel), ','));
            && ScopeGroup(sel) == Join(out, ", ") + " {"
            && |out| == |Parts(sel)|
            && forall k :: 0 <= k < |out| ==> out[k] == RewritePart(Parts(sel)[k])
  {
    var parts := Split(Trim(sel), ',');
    var out := ScopeParts(KeepPart, sel, parts);
    forall k | 0 <= k < |out|
      ensures out[k] == RewritePart(Parts(sel)[k])
    {
      PartRewritten(sel, parts[k]);
    }
  }

  lemma PartRewritten(sel: string, part: string)
    ensures ScopePartWith(KeepPart, sel, part) == RewritePart(Trim(part))
  {
  }

  /** The source's rewrite of one trimmed part: a `.nav` or `nav` part
      becomes the whole match `sel{`, every other part is rewritten as in
      the corrected rewrite. */
  function RewritePartAsWritten(sel: string, q: string): string {
    if q == ".nav" || q == "nav" then sel + "{" else RewritePart(q)
  }

  /** As written, a rewritten group is still its parts rewritten one by
      one, but any `.nav` part among them, at whatever position, stands for
      the whole match, brace included. */
  lemma GroupRewrittenAsWritten(sel: string)
    requires Rewrites(Trim(sel))
    ensures var out := ScopeParts(ReturnMatch, sel, Split(Trim(sel), ','));
            && ScopeGroupAsWritten(sel) == Join(out, ", ") + " {"
            && |out| == |Parts(sel)|
            && (forall k :: 0 <= k < |out| ==> out[k] == RewritePartAsWritten(sel, Parts(sel)[k]))
            && (forall k :: 0 <= k < |out| && (Parts(sel)[k] == ".nav" || Parts(sel)[k] == "nav") ==>
                  out[k] == sel + "{")
  {
    var parts := Split(Trim(sel), ',');
    var out := ScopeParts(ReturnMatch, sel, parts);
    forall k | 0 <= k < |out|
      ensures out[k] == RewritePartAsWritten(sel, Parts(sel)[k])
    {
      PartRewrittenAsWritten(sel, parts[k]);
    }
  }

  lemma PartRewrittenAsWritten(sel: string, part: string)
    ensures ScopePartWith(ReturnMatch, sel, part) == RewritePartAsWritten(sel, Trim(part))
  {
  }

  /** Read back as a comma-separated list, a scoped selector is the seven
      containers, in order, each followed by a space and the part. */
  lemma ScopedSelectorParts(q: string)
    requires ',' !in q && q != [] && IsTrimmed(q)
    ensures |Split(ScopedSelector(q), ',')| == |Containers|
    ensures forall k :: 0 <= k < |Containers| ==>
              Trim(Split(ScopedSelector(q), ',')[k]) == Containers[k] + " " + q
  {
    var spaced := Spaced(q);
    JoinCommaSpace(UnderContainers(q), spaced);
    SpacedNoComma(q);
    SplitJoin(spaced, ',');
    forall k | 0 <= k < |Containers|
      ensures Trim(spaced[k]) == Containers[k] + " " + q
    {
      TrimSpaced(q, k);
    }
  }

  /** The nested selectors with a space in front of all but the first. */
  function Spaced(q: string): (r: seq<string>)
    ensures |r| == |Containers|
    ensures r[0] == UnderContainers(q)[0]
    ensures forall k :: 1 <= k < |Containers| ==> r[k] == " " + UnderContainers(q)[k]
  {
    var sels := UnderContainers(q);
    seq(|sels|, k requires 0 <= k < |sels| => if k == 0 then sels[k] else " " + sels[k])
  }

  lemma SpacedNoComma(q: string)
    requires ',' !in q
    ensures forall k :: 0 <= k < |Containers| ==> ',' !in Spaced(q)[k]
  {
    forall k | 0 <= k < |Containers|
      ensures ',' !in Spaced(q)[k]
    {
      ContainerHasNo(k, ',');
    }
  }

  lemma TrimSpaced(q: string, k: nat)
    requires q != [] && IsTrimmed(q) && k < |Containers|
    ensures Trim(Spaced(q)[k]) == Containers[k] + " " + q
  {
    var sel := Containers[k] + " " + q;
    ContainerHasNo(k, ' ');
    assert sel[0] == Containers[k][0];
    assert sel[|sel| - 1] == q[|q| - 1];
    assert IsTrimmed(sel);
    if k == 0 {
      TrimOfTrimmed(sel);
    } else {
      assert " " + sel + "" == Spaced(q)[k];
      TrimUnique(" ", sel, "");
    }
  }

  lemma ContainerHasNo(k: nat, c: char)
    requires k < |Containers| && (c == ',' || c == ' ' || c == '{' || c == '}')
    ensures c !in Containers[k] && Containers[k] != [] && Containers[k][0] == '.'
  {
  }

  /** Joining with ", " is joining with "," after a space is put in front
      of every part but the first. */
  lemma {:induction false} JoinCommaSpace(parts: seq<string>, spaced: seq<string>)
    requires |parts| == |spaced| && |parts| >= 1
    requires spaced[0] == parts[0]
    requires forall k :: 1 <= k < |parts| ==> spaced[k] == " " + parts[k]
    ensures Join(parts, ", ") == Join(spaced, ",")
    decreases |parts|
  {
    if |parts| > 1 {
      JoinCommaSpaceTail(parts[1..], spaced[1..]);
      assert Join(parts, ", ") == parts[0] + ", " + Join(parts[1..], ", ");
      assert Join(spaced, ",") == spaced[0] + "," + Join(spaced[1..], ",");
    }
  }

  /** The same, with the space also in front of the first part. */
  lemma {:induction false} JoinCommaSpaceTail(parts: seq<string>, spaced: seq<string>)
    requires |parts| == |spaced| && |parts| >= 1
    requires forall k :: 0 <= k < |parts| ==> spaced[k] == " " + parts[k]
    ensures " " + Join(parts, ", ") == Join(spaced, ",")
    decreases |parts|
  {
    if |parts| > 1 {
      JoinCommaSpaceTail(parts[1..], spaced[1..]);
      assert " " + Join(parts, ", ") == (" " + parts[0]) + "," + (" " + Join(parts[1..], ", "));
    }
  }

  /** A scoped selector starts with the first marker class. */
  lemma ScopedSelectorMarked(q: string)
    ensures Contains(ScopedSelector(q), ".bootstrap-scope")
  {
    var sels := UnderContainers(q);
    assert sels[0][0..|".bootstrap-scope"|] == ".bootstrap-scope";
    assert OccursAt(sels[0], ".bootstrap-scope", 0);
    JoinContains(sels, ", ", 0, ".bootstrap-scope");
  }

  /** A group with at least one scoped part now names `.bootstrap-scope`,
      so rewriting the result a second time leaves it unchanged. */
  lemma ScopeGroupSettles(sel: string, k: nat)
    requires Rewrites(Trim(sel))
    requires k < |Parts(sel)| && Scopable(Parts(sel)[k])
    ensures var r := ScopeGroup(sel);
            |r| >= 1 && r[|r| - 1] == '{' && ScopeGroup(r[..|r| - 1]) == r
  {
    var g := Join(ScopeParts(KeepPart, sel, Split(Trim(sel), ',')), ", ") + " ";
    var r := ScopeGroup(sel);
    RewrittenGroupEnds(sel);
    JoinedMarked(sel, k);
    MarkedGroupKept(KeepPart, g);
    assert r == g + "{";
    assert r[..|r| - 1] == g;
  }

  /** A rewritten group is the joined parts, a space and '{'. */
  lemma RewrittenGroupEnds(sel: string)
    requires Rewrites(Trim(sel))
    ensures ScopeGroup(sel) == Join(ScopeParts(KeepPart, sel, Split(Trim(sel), ',')), ", ") + " " + "{"
  {
    var joined := Join(ScopeParts(KeepPart, sel, Split(Trim(sel), ',')), ", ");
    assert joined + " {" == joined + " " + "{";
  }

  /** The joined parts name the marker once one part is scoped. */
  lemma JoinedMarked(sel: string, k: nat)
    requires Rewrites(Trim(sel))
    requires k < |Parts(sel)| && Scopable(Parts(sel)[k])
    ensures Contains(Join(ScopeParts(KeepPart, sel, Split(Trim(sel), ',')), ", ") + " ", ".bootstrap-scope")
  {
    var out := ScopeParts(KeepPart, sel, Split(Trim(sel), ','));
    var joined := Join(out, ", ");
    assert out[k] == ScopedSelector(Parts(sel)[k]);
    ScopedSelectorMarked(Parts(sel)[k]);
    JoinContains(out, ", ", k, ".bootstrap-scope");
    ContainsAppend(joined, ".bootstrap-scope", " ");
  }

  /** Selector text that names `.bootstrap-scope` anywhere is returned as
      it matched, whatever white space surrounds it. */
  lemma MarkedGroupKept(rule: NavRule, sel: string)
    requires Contains(sel, ".bootstrap-scope")
    ensures ScopeGroupWith(rule, sel) == sel + "{"
  {
    MarkerTrimmed();
    TrimKeepsInner(sel, ".bootstrap-scope");
  }

  lemma MarkerTrimmed()
    ensures IsTrimmed(".bootstrap-scope")
  {
  }

  // Brace balance of the corrected rewrite

  lemma ScopedSelectorNoBraces(q: string)
    requires NoBraces(q)
    ensures NoBraces(ScopedSelector(q))
  {
    var sels := UnderContainers(q);
    forall c | c == '{' || c == '}'
      ensures c !in Join(sels, ", ")
    {
      if c in Join(sels, ", ") {
        JoinChars(sels, ", ", c);
        var k :| 0 <= k < 7 && c in sels[k];
        ContainerHasNo(k, c);
        assert false;
      }
    }
  }

  lemma PartNoBraces(sel: string, part: string)
    requires NoBraces(part)
    ensures NoBraces(ScopePartWith(KeepPart, sel, part))
  {
    var trimmed := Trim(part);
    if '{' in trimmed { TrimChars(part, '{'); }
    if '}' in trimmed { TrimChars(part, '}'); }
    ScopedSelectorNoBraces(trimmed);
  }

  /** A brace-free selector text becomes a brace-free text followed by the
      one '{' of the match. */
  lemma GroupBraces(sel: string)
    requires NoBraces(sel)
    ensures var r := ScopeGroup(sel);
            |r| >= 1 && r[|r| - 1] == '{' && NoBraces(r[..|r| - 1])
  {
    var r := ScopeGroup(sel);
    if Rewrites(Trim(sel)) {
      var joined := Join(ScopeParts(KeepPart, sel, Split(Trim(sel), ',')), ", ");
      JoinedNoBraces(sel);
      assert r == joined + " {";
      assert r[..|r| - 1] == joined + " ";
    } else {
      assert r[..|r| - 1] == sel;
    }
  }

  lemma JoinedNoBraces(sel: string)
    requires NoBraces(sel)
    ensures NoBraces(Join(ScopeParts(KeepPart, sel, Split(Trim(sel), ',')), ", "))
  {
    var out := ScopeParts(KeepPart, sel, Split(Trim(sel), ','));
    PartsNoBraces(sel);
    JoinNoBraces(out, ", ");
  }

  /** Joining brace-free parts with a brace-free separator adds no brace. */
  lemma JoinNoBraces(parts: seq<string>, sep: string)
    requires NoBraces(sep)
    requires forall k :: 0 <= k < |parts| ==> NoBraces(parts[k])
    ensures NoBraces(Join(parts, sep))
  {
    if '{' in Join(parts, sep) {
      JoinChars(parts, sep, '{');
    }
    if '}' in Join(parts, sep) {
      JoinChars(parts, sep, '}');
    }
  }

  lemma PartsNoBraces(sel: string)
    requires NoBraces(sel)
    ensures forall k :: 0 <= k < |Split(Trim(sel), ',')| ==>
              NoBraces(ScopeParts(KeepPart, sel, Split(Trim(sel), ','))[k])
  {
    var t := Trim(sel);
    var parts := Split(t, ',');
    forall k | 0 <= k < |parts|
      ensures NoBraces(ScopeParts(KeepPart, sel, parts)[k])
    {
      if '{' in parts[k] { SplitChars(t, ',', k, '{'); TrimChars(sel, '{'); }
      if '}' in parts[k] { SplitChars(t, ',', k, '}'); TrimChars(sel, '}'); }
      PartNoBraces(sel, parts[k]);
    }
  }

  lemma GroupCounts(sel: string)
    requires NoBraces(sel)
    ensures Count(ScopeGroup(sel), '{') == 1 && Count(ScopeGroup(sel), '}') == 0
  {
    GroupBraces(sel);
    var r := ScopeGroup(sel);
    var body := r[..|r| - 1];
    assert r == body + "{";
    CountConcat(body, "{", '{');
    CountConcat(body, "{", '}');
    CountAbsent(body, '{');
    CountAbsent(body, '}');
  }

  // Rewriting a whole style sheet

  function ScopePieceWith(rule: NavRule, p: Piece): string {
    match p
    case Group(sel) => ScopeGroupWith(rule, sel)
    case _ => PieceText(p)
  }

  function ScopePiecesWith(rule: NavRule, ps: seq<Piece>): string {
    if ps == [] then "" else ScopePieceWith(rule, ps[0]) + ScopePiecesWith(rule, ps[1..])
  }

  /** `cssText.replace(/([^{}]+)\{/g, …)`: every match replaced, all other
      text copied. */
  function ScopeWith(rule: NavRule, css: string): string {
    ScopePiecesWith(rule, Pieces(css))
  }

  function ScopeAsWritten(css: string): string {
    ScopeWith(ReturnMatch, css)
  }

  function Scope(css: string): string {
    ScopeWith(KeepPart, css)
  }

  lemma {:induction false} PiecesBraces(ps: seq<Piece>, c: char)
    requires WellFormed(ps) && IsBrace(c)
    ensures Count(ScopePiecesWith(KeepPart, ps), c) == Count(Render(ps), c)
    decreases |ps|
  {
    if ps != [] {
      var rest := ps[1..];
      WellFormedTail(ps);
      PiecesBraces(rest, c);
      CountConcat(ScopePieceWith(KeepPart, ps[0]), ScopePiecesWith(KeepPart, rest), c);
      CountConcat(PieceText(ps[0]), Render(rest), c);
      PieceBraces(ps[0], c);
    }
  }

  lemma PieceBraces(p: Piece, c: char)
    requires p.Group? ==> NoBraces(p.selector)
    requires IsBrace(c)
    ensures Count(ScopePieceWith(KeepPart, p), c) == Count(PieceText(p), c)
  {
    if p.Group? {
      var sel := p.selector;
      GroupCounts(sel);
      CountConcat(sel, "{", c);
      CountAbsent(sel, '{');
      CountAbsent(sel, '}');
    }
  }

  /** The rewrite neither adds nor drops a brace: declarations and every
      '}' are copied, and each group keeps its one '{'. */
  lemma ScopeKeepsBraces(css: string)
    ensures Count(Scope(css), '{') == Count(css, '{')
    ensures Count(Scope(css), '}') == Count(css, '}')
  {
    PiecesWellFormed(css);
    PiecesBraces(Pieces(css), '{');
    PiecesBraces(Pieces(css), '}');
  }

  /** No part of the group is `.nav` or `nav`. */
  predicate NoNavPart(sel: string) {
    forall k :: 0 <= k < |Parts(sel)| ==> Parts(sel)[k] != ".nav" && Parts(sel)[k] != "nav"
  }

  /** Without a `.nav` part the source's rewrite and the corrected one agree. */
  lemma AsWrittenWithoutNav(sel: string)
    requires NoNavPart(sel)
    ensures ScopeGroupAsWritten(sel) == ScopeGroup(sel)
  {
    var t := Trim(sel);
    if Rewrites(t) {
      var parts := Split(t, ',');
      var a := ScopeParts(ReturnMatch, sel, parts);
      var b := ScopeParts(KeepPart, sel, parts);
      assert a == b by {
        forall k | 0 <= k < |parts|
          ensures a[k] == b[k]
        {
          assert Parts(sel)[k] == Trim(parts[k]);
        }
      }
    }
  }

  lemma {:induction false} AsWrittenPiecesWithoutNav(ps: seq<Piece>)
    requires forall i :: 0 <= i < |ps| && ps[i].Group? ==> NoNavPart(ps[i].selector)
    ensures ScopePiecesWith(ReturnMatch, ps) == ScopePiecesWith(KeepPart, ps)
    decreases |ps|
  {
    if ps != [] {
      AsWrittenPiecesWithoutNav(ps[1..]);
      if ps[0].Group? {
        AsWrittenWithoutNav(ps[0].selector);
      }
    }
  }

  /** A style sheet with no `.nav` part in any rule is rewritten the same
      by the source and by the corrected rewrite, so the source keeps its
      braces balanced there. */
  lemma AsWrittenKeepsBracesWithoutNav(css: string)
    requires forall i :: 0 <= i < |Pieces(css)| && Pieces(css)[i].Group? ==> NoNavPart(Pieces(css)[i].selector)
    ensures ScopeAsWritten(css) == Scope(css)
    ensures Count(ScopeAsWritten(css), '{') == Count(css, '{')
    ensures Count(ScopeAsWritten(css), '}') == Count(css, '}')
  {
    AsWrittenPiecesWithoutNav(Pieces(css));
    ScopeKeepsBraces(css);
  }

  /** A group whose selector text is `.nav` or `nav`: the source returns
      the match followed by " {", so the output holds two '{' where the
      match had one. */
  lemma NavGroupAsWritten(sel: string)
    requires Trim(sel) == ".nav" || Trim(sel) == "nav"
    ensures ScopeGroupAsWritten(sel) == sel + "{ {"
  {
    var t := Trim(sel);
    NavRewrites(t);
    assert Split(t, ',') == [t];
    TrimOfTrimmed(t);
    assert ScopeParts(ReturnMatch, sel, [t]) == [sel + "{"];
  }

  /** The corrected rewrite keeps a `.nav` or `nav` group unscoped. */
  lemma NavGroupCorrected(sel: string)
    requires Trim(sel) == ".nav" || Trim(sel) == "nav"
    ensures ScopeGroup(sel) == Trim(sel) + " {"
  {
    var t := Trim(sel);
    NavRewrites(t);
    assert Split(t, ',') == [t];
    TrimOfTrimmed(t);
    assert ScopeParts(KeepPart, sel, [t]) == [t];
  }

  lemma NavRewrites(t: string)
    requires t == ".nav" || t == "nav"
    ensures Rewrites(t) && IsTrimmed(t) && ',' !in t
  {
    NotContainsShort(t, ".bootstrap-scope");
    NotContainsShort(t, ".formio-modal");
    NotContainsShort(t, ".formio-builder");
    assert t[..1] != "@" by { assert t[..1][0] == t[0] != '@'; }
    assert forall i :: 0 <= i < |t| ==> t[i] != '@' && t[i] != ',';
  }

  /** The style sheet `.nav{}`: the source turns it into `.nav{ {}`, with
      one '{' too many, where the corrected rewrite gives `.nav {}`. */
  lemma NavRuleGainsBrace(css: string)
    requires css == ".nav{}"
    ensures ScopeAsWritten(css) == ".nav{ {}"
    ensures Scope(css) == ".nav {}"
    ensures Count(ScopeAsWritten(css), '{') == Count(css, '{') + 1
  {
    var sel := css[..4];
    NavSheetPieces(css);
    TwoPieces(Group(sel), Brace('}'));
    NavTrim(sel);
    NavGroupAsWritten(sel);
    NavGroupCorrected(sel);
    assert ScopeAsWritten(css) == sel + "{ {" + "}";
    assert Scope(css) == sel + " {" + "}";
    NavOutputs(sel);
    NavBraceCounts(css, ScopeAsWritten(css));
  }

  lemma NavSheetPieces(css: string)
    requires css == ".nav{}"
    ensures css[..4] == ".nav"
    ensures Pieces(css) == [Group(css[..4]), Brace('}')]
  {
    var sel := css[..4];
    assert css == sel + "{}";
    assert NoBraces(sel);
    EmptyRulePieces(sel);
  }

  /** A rule with an empty body is one group and the closing brace. */
  lemma EmptyRulePieces(sel: string)
    requires sel != [] && NoBraces(sel)
    ensures Pieces(sel + "{}") == [Group(sel), Brace('}')]
  {
    var ps := [Group(sel), Brace('}')];
    TwoPieces(Group(sel), Brace('}'));
    assert Render(ps) == sel + "{}";
    PiecesUnique(ps);
  }

  lemma NavOutputs(sel: string)
    requires sel == ".nav"
    ensures sel + "{ {" + "}" == ".nav{ {}" && sel + " {" + "}" == ".nav {}"
  {
  }

  lemma NavBraceCounts(css: string, out: string)
    requires css == ".nav{}" && out == ".nav{ {}"
    ensures Count(out, '{') == 2 && Count(css, '{') == 1
  {
    assert out == ".nav" + "{" + " " + "{" + "}";
    assert css == ".nav" + "{" + "}";
    CountConcat(".nav" + "{" + " " + "{", "}", '{');
    CountConcat(".nav" + "{" + " ", "{", '{');
    CountConcat(".nav" + "{", " ", '{');
    CountConcat(".nav", "{", '{');
    CountConcat(".nav" + "{", "}", '{');
  }

  lemma TwoPieces(p: Piece, q: Piece)
    ensures Render([p, q]) == PieceText(p) + PieceText(q)
    ensures ScopePiecesWith(ReturnMatch, [p, q]) == ScopePieceWith(ReturnMatch, p) + ScopePieceWith(ReturnMatch, q)
    ensures ScopePiecesWith(KeepPart, [p, q]) == ScopePieceWith(KeepPart, p) + ScopePieceWith(KeepPart, q)
  {
    assert [p, q][1..] == [q];
    assert [q][1..] == [];
    assert Render([q]) == PieceText(q) + "" == PieceText(q);
    assert Render([p, q]) == PieceText(p) + Render([q]);
    assert ScopePiecesWith(ReturnMatch, [q]) == ScopePieceWith(ReturnMatch, q) + "" == ScopePieceWith(ReturnMatch, q);
    assert ScopePiecesWith(ReturnMatch, [p, q]) == ScopePieceWith(ReturnMatch, p) + ScopePiecesWith(ReturnMatch, [q]);
    assert ScopePiecesWith(KeepPart, [q]) == ScopePieceWith(KeepPart, q) + "" == ScopePieceWith(KeepPart, q);
    assert ScopePiecesWith(KeepPart, [p, q]) == ScopePieceWith(KeepPart, p) + ScopePiecesWith(KeepPart, [q]);
  }

  lemma NavTrim(sel: string)
    requires sel == ".nav"
    ensures Trim(sel) == ".nav"
  {
    TrimOfTrimmed(sel);
  }

  lemma NotContainsShort(s: string, m: string)
    requires |s| < |m|
    ensures !Contains(s, m)
  {
  }

  // The page-wide count of mounted providers

  /** `window.__formBuilderBootstrapCount`: absent at first, a number, or
      NaN once it was decremented while absent. */
  datatype Counter = Unset | Counted(n: int) | NotANumber

  /** The counter after a decrement, and whether both style elements were
      removed. */
  datatype Unmounted = Unmounted(counter: Counter, removesStyles: bool)

  /** Mounting: a missing, zero or NaN count restarts at zero, then the
      count goes up by one. */
  function Mount(c: Counter): (r: Counter)
    ensures r.Counted? && r.n == (if c.Counted? && c.n != 0 then c.n + 1 else 1)
  {
    match c
    case Counted(n) => if n == 0 then Counted(1) else Counted(n + 1)
    case _ => Counted(1)
  }

  /** Unmounting: the count goes down by one; at zero or below both style
      elements are removed and the count is reset to zero. A missing count
      turns into NaN, which is never at or below zero. */
  function Unmount(c: Counter): (r: Unmounted)
    ensures r.counter.Counted? ==> r.counter.n >= 0
    ensures r.removesStyles <==> c.Counted? && c.n <= 1
    ensures r.removesStyles ==> r.counter == Counted(0)
  {
    match c
    case Counted(n) => if n - 1 <= 0 then Unmounted(Counted(0), true) else Unmounted(Counted(n - 1), false)
    case _ => Unmounted(NotANumber, false)
  }

  /** A mount (`true`) or unmount (`false`) of one provider. */
  function Apply(c: Counter, mount: bool): Counter {
    if mount then Mount(c) else Unmount(c).counter
  }

  /** The counter after a sequence of mounts and unmounts, from absent. */
  function Replay(events: seq<bool>): Counter {
    if events == [] then Unset else Apply(Replay(events[..|events| - 1]), events[|events| - 1])
  }

  /** Mounted providers minus unmounted ones. */
  function Open(events: seq<bool>): int {
    if events == [] then 0
    else Open(events[..|events| - 1]) + (if events[|events| - 1] then 1 else -1)
  }

  /** Every unmount belongs to an earlier mount, as React guarantees for
      one effect. */
  ghost predicate Nested(events: seq<bool>) {
    forall k :: 0 <= k <= |events| ==> Open(events[..k]) >= 0
  }

  /** Under proper nesting the counter is exactly the number of providers
      currently mounted (absent only before the first mount). */
  lemma {:induction false} ReplayCounts(events: seq<bool>)
    requires Nested(events)
    ensures Replay(events) == if events == [] then Unset else Counted(Open(events))
    decreases |events|
  {
    if events != [] {
      var prefix := events[..|events| - 1];
      assert Nested(prefix) by {
        forall k | 0 <= k <= |prefix|
          ensures Open(prefix[..k]) >= 0
        {
          assert prefix[..k] == events[..k];
        }
      }
      ReplayCounts(prefix);
      assert events[..|events|] == events;
      assert Open(prefix) >= 0 by {
        assert events[..|prefix|] == prefix;
      }
    }
  }

  /** Under proper nesting the style elements are removed by an unmount
      exactly when it is the last mounted provider's. */
  lemma RemovesOnLastUnmount(events: seq<bool>)
    requires Nested(events) && Open(events) >= 1
    ensures Unmount(Replay(events)).removesStyles <==> Open(events) == 1
  {
    ReplayCounts(events);
  }

  /** Whatever happened before, the count is never negative afterwards
      once it was not negative to begin with. */
  lemma {:induction false} ReplayNonNegative(events: seq<bool>)
    ensures Replay(events).Counted? ==> Replay(events).n >= 0
    decreases |events|
  {
    if events != [] {
      ReplayNonNegative(events[..|events| - 1]);
    }
  }
}

=== FILE: form_stepper.dfy ===
/** The multi-step form wizard as a reducer. The wizard holds the index of
    the step on screen, the data collected per step, whether the whole form
    was accepted and the last error text. Each event is one handler run:
    the rendering widget submits a step, the Back button is pressed, the
    final HTTP request comes back, or the widget reports an error. The
    HTTP exchange itself is not modelled: the reducer emits the request it
    would send, and the response arrives later as an event. */
module FormStepper {
  import opened Optional
  import opened Json
  import SubmitRoute

  /** Text shown when a rejected response carries no usable `error`. */
  const SubmissionFailed := "Submission failed"

  /** The success text shown when the caller supplies none. */
  const DefaultSuccessMessage := "Thank you for your submission!"

  /** `stepData` is a JavaScript array: `None` is a hole that an assignment
      past the end would leave behind. */
  datatype Wizard = Wizard(current: nat, stepData: seq<Option<Value>>, isComplete: bool, error: Option<string>)

  /** How the final `fetch` ended: an ok response; a non-ok response whose
      JSON body has the given string `error` member (`None` when absent or
      not a string); or an exception with its message (network failure,
      unreadable body). */
  datatype Outcome = Accepted | Rejected(error: Option<string>) | Thrown(message: string)

  datatype Event =
    | StepSubmitted(data: Value)
    | BackPressed
    | Responded(outcome: Outcome)
    | RendererError(message: string)

  /** The body of `POST /api/forms/submit`. */
  datatype Request = Request(formId: string, data: Value)

  /** A new state and the request the handler sent, if any. */
  datatype Effect = Effect(next: Wizard, request: Option<Request>)

  function Initial(): Wizard {
    Wizard(0, [], false, None)
  }

  /** A JavaScript hole is written as `null` by `JSON.stringify`. */
  function Unhole(v: Option<Value>): Value {
    match v
    case Some(x) => x
    case None => Null
  }

  /** `a[i] = d` on a copy of the array: past the end, the array grows to
      `i + 1` with holes in between. */
  function Write(s: seq<Option<Value>>, i: nat, d: Value): (r: seq<Option<Value>>)
    ensures |r| == if i < |s| then |s| else i + 1
    ensures r[i] == Some(d)
    ensures forall j :: 0 <= j < |s| && j != i ==> r[j] == s[j]
    ensures forall j :: |s| <= j < i ==> r[j].None?
  {
    if i < |s| then s[i := Some(d)]
    else s + seq(i - |s|, _ => None) + [Some(d)]
  }

  /** The `data` member sent with the final request: the only entry when
      there is exactly one, the whole array otherwise. */
  function Payload(s: seq<Option<Value>>): Value {
    if |s| == 1 then Unhole(s[0]) else Array(seq(|s|, j requires 0 <= j < |s| => Unhole(s[j])))
  }

  /** `handleStepSubmit` for a form of `n` steps: store the data, then
      either move on or send everything collected. */
  function SubmitStep(n: nat, formId: string, w: Wizard, d: Value): (e: Effect) {
    var data := Write(w.stepData, w.current, d);
    var stored := w.(stepData := data);
    if (w.current as int) < n - 1 then Effect(stored.(current := w.current + 1), None)
    else Effect(stored, Some(Request(formId, Payload(data))))
  }

  /** `handleBack`. */
  function Back(w: Wizard): (r: Wizard) {
    if w.current > 0 then w.(current := w.current - 1) else w
  }

  /** The tail of `handleStepSubmit` once the response is known. */
  function Settle(w: Wizard, o: Outcome): (r: Wizard) {
    match o
    case Accepted => w.(isComplete := true)
    case Rejected(e) =>
      w.(error := Some(if e.Some? && e.value != "" then e.value else SubmissionFailed))
    case Thrown(m) => w.(error := Some(m))
  }

  function Step(n: nat, formId: string, w: Wizard, ev: Event): (e: Effect) {
    match ev
    case StepSubmitted(d) => SubmitStep(n, formId, w, d)
    case BackPressed => Effect(Back(w), None)
    case Responded(o) => Effect(Settle(w, o), None)
    case RendererError(m) => Effect(w.(error := Some(m)), None)
  }

  /** The final state after a sequence of events, and every request sent
      on the way, in order. */
  function Run(n: nat, formId: string, w: Wizard, events: seq<Event>): (r: (Wizard, seq<Request>))
    decreases |events|
  {
    if events == [] then (w, [])
    else
      var e := Step(n, formId, w, events[0]);
      var rest := Run(n, formId, e.next, events[1..]);
      (rest.0, (if e.request.Some? then [e.request.value] else []) + rest.1)
  }

  /** The wizard's invariant for a form of `n` steps: the step on screen
      exists, every earlier step has data, nothing beyond the last step is
      stored, and the array has no holes. */
  ghost predicate Inv(n: nat, w: Wizard) {
    && w.current < n
    && w.current <= |w.stepData| <= n
    && forall j :: 0 <= j < |w.stepData| ==> w.stepData[j].Some?
  }

  lemma InitialInv(n: nat)
    requires n >= 1
    ensures Inv(n, Initial())
  {
  }

  /** Submitting a step stores its data at the current index and nothing
      else changes in the array. */
  lemma SubmitStepStores(n: nat, formId: string, w: Wizard, d: Value)
    requires w.current <= |w.stepData|
    ensures var r := SubmitStep(n, formId, w, d).next;
            && |r.stepData| == (if w.current < |w.stepData| then |w.stepData| else w.current + 1)
            && r.stepData[w.current] == Some(d)
            && (forall j :: 0 <= j < |w.stepData| && j != w.current ==> r.stepData[j] == w.stepData[j])
            && r.isComplete == w.isComplete && r.error == w.error
  {
  }

  /** Before the last step a submission advances by exactly one and sends
      nothing; on the last step it stays put and sends the form id with
      the payload. */
  lemma SubmitStepMoves(n: nat, formId: string, w: Wizard, d: Value)
    ensures var e := SubmitStep(n, formId, w, d);
            && (w.current + 1 < n ==> e.next.current == w.current + 1 && e.request.None?)
            && (w.current + 1 >= n ==>
                  e.next.current == w.current
                  && e.request == Some(Request(formId, Payload(e.next.stepData))))
  {
  }

  /** On the last step of an `n`-step form the request carries the step's
      own data when `n` is 1, and otherwise an array of all `n` entries
      whose last entry is the step's data and whose others are what was
      collected before. */
  lemma FinalPayload(n: nat, formId: string, w: Wizard, d: Value)
    requires Inv(n, w) && w.current == n - 1
    ensures var e := SubmitStep(n, formId, w, d);
            && e.request.Some?
            && e.request.value.formId == formId
            && (n == 1 ==> e.request.value.data == d)
            && (n != 1 ==>
                  && e.request.value.data.Array?
                  && |e.request.value.data.items| == n
                  && e.request.value.data.items[n - 1] == d
                  && forall j :: 0 <= j < n - 1 ==> e.request.value.data.items[j] == w.stepData[j].value)
  {
    var s := Write(w.stepData, w.current, d);
    assert |s| == n;
  }

  /** With every entry filled, the payload is a bare step object exactly
      when the form has one step. */
  lemma PayloadFlatIffSingleStep(n: nat, formId: string, w: Wizard, d: Value)
    requires Inv(n, w) && w.current == n - 1
    ensures SubmitStep(n, formId, w, d).request.value.data == Unhole(Write(w.stepData, w.current, d)[0])
            <==> n == 1
  {
    var s := Write(w.stepData, w.current, d);
    assert |s| == n;
    if n != 1 {
      var p := Payload(s);
      assert p.Array?;
      assert p.items[0] == Unhole(s[0]);
    }
  }

  /** Every event keeps the invariant. */
  lemma StepInv(n: nat, formId: string, w: Wizard, ev: Event)
    requires Inv(n, w)
    ensures Inv(n, Step(n, formId, w, ev).next)
  {
    if ev.StepSubmitted? {
      var r := Step(n, formId, w, ev).next;
      assert forall j :: 0 <= j < |r.stepData| ==> r.stepData[j].Some?;
    }
  }

  /** The invariant holds after any sequence of events. */
  lemma {:induction false} RunInv(n: nat, formId: string, w: Wizard, events: seq<Event>)
    requires Inv(n, w)
    ensures Inv(n, Run(n, formId, w, events).0)
    decreases |events|
  {
    if events != [] {
      StepInv(n, formId, w, events[0]);
      RunInv(n, formId, Step(n, formId, w, events[0]).next, events[1..]);
    }
  }

  /** From the first step, every reachable state keeps the invariant: the
      step index stays in range and the collected data has no holes. */
  lemma ReachableInv(n: nat, formId: string, events: seq<Event>)
    requires n >= 1
    ensures var w := Run(n, formId, Initial(), events).0;
            && w.current < n
            && w.current <= |w.stepData| <= n
            && forall j :: 0 <= j < |w.stepData| ==> w.stepData[j].Some?
  {
    InitialInv(n);
    RunInv(n, formId, Initial(), events);
  }

  /** Once set, the error text is never cleared by any event. */
  lemma StepKeepsError(n: nat, formId: string, w: Wizard, ev: Event)
    requires w.error.Some?
    ensures Step(n, formId, w, ev).next.error.Some?
  {
  }

  lemma {:induction false} RunKeepsError(n: nat, formId: string, w: Wizard, events: seq<Event>)
    requires w.error.Some?
    ensures Run(n, formId, w, events).0.error.Some?
    decreases |events|
  {
    if events != [] {
      StepKeepsError(n, formId, w, events[0]);
      RunKeepsError(n, formId, Step(n, formId, w, events[0]).next, events[1..]);
    }
  }

  /** Completion is only ever switched on, and only by an ok response. */
  lemma StepCompletion(n: nat, formId: string, w: Wizard, ev: Event)
    ensures w.isComplete ==> Step(n, formId, w, ev).next.isComplete
    ensures !w.isComplete && Step(n, formId, w, ev).next.isComplete ==> ev == Responded(Accepted)
  {
  }

  /** A sequence with no ok response never completes the form. */
  lemma {:induction false} RunCompletion(n: nat, formId: string, w: Wizard, events: seq<Event>)
    requires !w.isComplete
    requires forall k :: 0 <= k < |events| ==> events[k] != Responded(Accepted)
    ensures !Run(n, formId, w, events).0.isComplete
    decreases |events|
  {
    if events != [] {
      StepCompletion(n, formId, w, events[0]);
      RunCompletion(n, formId, Step(n, formId, w, events[0]).next, events[1..]);
    }
  }

  /** The handler's own path to completion: on the last step the data is
      stored, one request carries the form id and the payload of all `n`
      entries with none missing, and the ok response to it completes the
      form. */
  lemma FinalExchangeCompletes(n: nat, formId: string, w: Wizard, d: Value)
    requires Inv(n, w) && w.current == n - 1
    ensures var r := Run(n, formId, w, [StepSubmitted(d), Responded(Accepted)]);
            && r.0.isComplete
            && |r.0.stepData| == n
            && r.0.stepData[n - 1] == Some(d)
            && (forall j :: 0 <= j < n ==> r.0.stepData[j].Some?)
            && r.1 == [Request(formId, Payload(r.0.stepData))]
  {
    var e := SubmitStep(n, formId, w, d);
    var s := Write(w.stepData, w.current, d);
    assert |s| == n;
    assert e.next.stepData == s;
    var events := [StepSubmitted(d), Responded(Accepted)];
    assert events[1..] == [Responded(Accepted)];
    var done := Settle(e.next, Accepted);
    var answer := [Responded(Accepted)];
    assert answer[1..] == [];
    assert Run(n, formId, done, answer[1..]) == (done, []);
    assert Step(n, formId, e.next, answer[0]) == Effect(done, None);
    assert Run(n, formId, e.next, answer).0 == done;
    assert Run(n, formId, e.next, answer).1 == [];
  }

  /** A failed response records the error text and leaves the step index
      and the collected data alone. */
  lemma SettleFailure(w: Wizard, o: Outcome)
    requires !o.Accepted?
    ensures var r := Settle(w, o);
            && r.current == w.current && r.stepData == w.stepData && r.isComplete == w.isComplete
            && (o.Rejected? && o.error.Some? && o.error.value != "" ==> r.error == o.error)
            && (o.Rejected? && (o.error.None? || o.error.value == "") ==> r.error == Some(SubmissionFailed))
            && (o.Thrown? ==> r.error == Some(o.message))
  {
  }

  /** Back moves one step back exactly when not on the first step and
      never touches anything but the step index. */
  lemma BackMoves(w: Wizard)
    ensures Back(w).current == if w.current > 0 then w.current - 1 else 0
    ensures Back(w).stepData == w.stepData
    ensures Back(w).isComplete == w.isComplete && Back(w).error == w.error
  {
  }

  /** The Back button is shown for a multi-step form past its first step,
      and only while the form is not complete: a completed form renders the
      completion screen instead of the wizard. */
  predicate BackVisible(n: nat, w: Wizard) {
    !w.isComplete && n != 1 && w.current > 0
  }

  /** Under the invariant, the button is shown exactly when the form is not
      complete and pressing it would change the state; a completed form
      never shows it. */
  lemma BackVisibleIffEffective(n: nat, w: Wizard)
    requires Inv(n, w)
    ensures BackVisible(n, w) <==> !w.isComplete && Back(w) != w
    ensures w.isComplete ==> !BackVisible(n, w)
  {
  }

  /** No guard against resubmission: on the last step every submission
      sends a request again, and the state stays on the last step. */
  lemma ResubmitSendsAgain(n: nat, formId: string, w: Wizard, d1: Value, d2: Value)
    requires Inv(n, w) && w.current == n - 1
    ensures var e1 := SubmitStep(n, formId, w, d1);
            var e2 := SubmitStep(n, formId, e1.next, d2);
            e1.request.Some? && e2.request.Some? && e2.next.current == n - 1
  {
    StepInv(n, formId, w, StepSubmitted(d1));
  }

  /** What the client makes of the route's reply: `response.ok` is a
      2xx status; otherwise the `error` member, when it is a string. */
  function OutcomeOf(reply: SubmitRoute.Reply): Outcome {
    if 200 <= reply.status <= 299 then Accepted
    else
      match Field(reply.body, "error")
      case Some(Str(s)) => Rejected(Some(s))
      case _ => Rejected(None)
  }

  /** The JSON body the client sends. */
  function RequestBody(r: Request): Value {
    Object([("formId", Str(r.formId)), ("data", r.data)])
  }

  /** End to end: whatever the route decides, the wizard completes exactly
      when a record was stored, and otherwise shows the route's own error
      text. */
  lemma RouteReplyReachesWizard(w: Wizard, ready: bool, body: Option<Value>, headers: SubmitRoute.Headers,
                                lookup: SubmitRoute.Lookup, creation: SubmitRoute.Creation)
    ensures var h := SubmitRoute.Post(ready, body, headers, lookup, creation);
            var r := Settle(w, OutcomeOf(h.reply));
            && (h.created.Some? ==> r == w.(isComplete := true))
            && (h.created.None? ==> r == w.(error := Some(Field(h.reply.body, "error").value.s)))
  {
    var h := SubmitRoute.Post(ready, body, headers, lookup, creation);
    if h.created.Some? {
      SubmitRoute.PostStoresOnlyValid(ready, body, headers, lookup, creation);
      SubmitRoute.PostStoredRecord(body, headers, lookup, creation);
    } else {
      SubmitRoute.PostFailureReply(ready, body, headers, lookup, creation);
    }
  }

  /** A request the wizard sends with a non-empty form id and object step
      data always passes the route's missing-parameter check. */
  lemma RequestHasParameters(n: nat, formId: string, w: Wizard, d: Value)
    requires Inv(n, w) && w.current == n - 1 && formId != ""
    requires d.Object?
    requires forall j :: 0 <= j < |w.stepData| ==> w.stepData[j].value.Object?
    ensures var body := RequestBody(SubmitStep(n, formId, w, d).request.value);
            && SubmitRoute.IsTruthy(Field(body, "formId"))
            && SubmitRoute.IsTruthy(Field(body, "data"))
  {
    FinalPayload(n, formId, w, d);
    var r := SubmitStep(n, formId, w, d).request.value;
    var rest := [("data", r.data)];
    GetCons(("formId", Str(r.formId)), rest, "formId");
    GetCons(("formId", Str(r.formId)), rest, "data");
    GetCons(rest[0], [], "data");
    assert [("formId", Str(r.formId))] + rest == RequestBody(r).members;
  }

  // Progress indicator

  datatype Dot = Active | Completed | Pending

  datatype Label = Check | Ordinal(k: nat)

  /** One step's dot, its label, and the connector after it (`None` after
      the last step; otherwise whether it is drawn as completed). */
  datatype Indicator = Indicator(dot: Dot, mark: Label, line: Option<bool>)

  function IndicatorAt(n: nat, current: nat, i: nat): Indicator {
    Indicator(
      if i == current then Active else if i < current then Completed else Pending,
      if i < current then Check else Ordinal(i + 1),
      if (i as int) < n - 1 then Some(i < current) else None)
  }

  /** The progress row: one indicator per step, and none at all for a
      single-step form. */
  function Progress(n: nat, current: nat): (p: seq<Indicator>) {
    if n == 1 then [] else seq(n, i requires 0 <= i < n => IndicatorAt(n, current, i))
  }

  /** The number of dots drawn as `dot`. */
  function CountDots(p: seq<Indicator>, dot: Dot): nat {
    if p == [] then 0 else CountDots(p[..|p| - 1], dot) + (if p[|p| - 1].dot == dot then 1 else 0)
  }

  /** The number of connectors drawn as completed. */
  function CountDoneLines(p: seq<Indicator>): nat {
    if p == [] then 0 else CountDoneLines(p[..|p| - 1]) + (if p[|p| - 1].line == Some(true) then 1 else 0)
  }

  /** Each dot is classified by its position relative to the current
      step; the ✓ label replaces the number exactly on completed
      steps; a connector follows every step but the last and is completed
      exactly before the current step. */
  lemma ProgressShape(n: nat, current: nat, i: nat)
    requires n != 1 && i < n
    ensures var ind := Progress(n, current)[i];
            && (ind.dot == Active <==> i == current)
            && (ind.dot == Completed <==> i < current)
            && (ind.dot == Pending <==> i > current)
            && (ind.mark == Check <==> ind.dot == Completed)
            && (ind.mark != Check ==> ind.mark == Ordinal(i + 1))
            && (ind.line.Some? <==> i + 1 < n)
            && (ind.line == Some(true) <==> i + 1 < n && i < current)
  {
  }

  lemma {:induction false} CountPrefix(n: nat, current: nat, k: nat)
    requires n != 1 && current < n && k <= n
    ensures var p := Progress(n, current)[..k];
            && CountDots(p, Completed) == (if k < current then k else current)
            && CountDots(p, Active) == (if k > current then 1 else 0)
            && CountDots(p, Pending) == (if k > current then k - current - 1 else 0)
            && CountDoneLines(p) == (if k < current then k else current)
    decreases k
  {
    if k > 0 {
      var p := Progress(n, current)[..k];
      assert p[..k - 1] == Progress(n, current)[..k - 1];
      CountPrefix(n, current, k - 1);
      ProgressShape(n, current, k - 1);
    }
  }

  /** On a multi-step form whose current step is in range, exactly one
      dot is active, `current` dots and connectors are completed and the
      rest are pending. */
  lemma ProgressCounts(n: nat, current: nat)
    requires n != 1 && current < n
    ensures var p := Progress(n, current);
            && |p| == n
            && CountDots(p, Active) == 1
            && CountDots(p, Completed) == current
            && CountDots(p, Pending) == n - 1 - current
            && CountDoneLines(p) == current
  {
    CountPrefix(n, current, n);
    assert Progress(n, current)[..n] == Progress(n, current);
  }
}

=== FILE: forms.dfy ===
/** The parts of the `forms` collection that the endpoint and the seed
    script share. */
module Forms {

  /** The `status` select of a form definition: `'draft'` (the default) or
      `'published'`. */
  datatype FormStatus = Draft | Published
}

=== FILE: json.dfy ===
/** Parsed JSON values as the route handler and the wizard see them after
    `JSON.parse`, and the JavaScript reads the core performs on them:
    truthiness and property access. */
module Json {
  import opened Optional

  /** An object is its member list in parse order. */
  datatype Value =
    | Null
    | Bool(b: bool)
    | Number(n: real)
    | Str(s: string)
    | Array(items: seq<Value>)
    | Object(members: seq<(string, Value)>)

  /** JavaScript truthiness: `null`, `false`, `0` and `""` are falsy;
      arrays and objects, even empty ones, are truthy. */
  predicate Truthy(v: Value) {
    match v
    case Null => false
    case Bool(b) => b
    case Number(n) => n != 0.0
    case Str(s) => s != ""
    case Array(_) => true
    case Object(_) => true
  }

  /** The position of the first member named `key`. */
  function KeyIndex(members: seq<(string, Value)>, key: string): (r: Option<nat>)
    ensures r.Some? ==> r.value < |members| && members[r.value].0 == key
    ensures r.Some? ==> forall j :: 0 <= j < r.value ==> members[j].0 != key
    ensures r.None? ==> forall j :: 0 <= j < |members| ==> members[j].0 != key
  {
    if members == [] then None
    else if members[0].0 == key then Some(0)
    else
      match KeyIndex(members[1..], key)
      case Some(i) => Some(i + 1)
      case None => None
  }

  /** The value bound to `key`, `None` (JavaScript `undefined`) when the
      key is absent. */
  function Get(members: seq<(string, Value)>, key: string): (r: Option<Value>)
    ensures r.None? <==> forall j :: 0 <= j < |members| ==> members[j].0 != key
    ensures r.Some? ==> (key, r.value) in members
  {
    match KeyIndex(members, key)
    case Some(i) => Some(members[i].1)
    case None => None
  }

  /** `v[key]` for a name that is neither an array index nor `length`:
      only objects have such a property of their own. */
  function Field(v: Value, key: string): (r: Option<Value>)
    ensures !v.Object? ==> r.None?
  {
    if v.Object? then Get(v.members, key) else None
  }

  /** No key occurs twice, as in any object `JSON.parse` builds. */
  predicate DistinctKeys(members: seq<(string, Value)>) {
    forall i, j :: 0 <= i < j < |members| ==> members[i].0 != members[j].0
  }

  /** With distinct keys, every member is found by its own key. */
  lemma GetDistinct(members: seq<(string, Value)>, i: nat)
    requires DistinctKeys(members) && i < |members|
    ensures Get(members, members[i].0) == Some(members[i].1)
  {
    var k := KeyIndex(members, members[i].0);
    assert k.Some?;
  }

  /** Looking a key up in a list with one more member in front. */
  lemma GetCons(m: (string, Value), rest: seq<(string, Value)>, key: string)
    ensures Get([m] + rest, key) == if m.0 == key then Some(m.1) else Get(rest, key)
  {
    assert ([m] + rest)[1..] == rest;
  }
}

=== FILE: numbers.dfy ===
/** Decimal digits: rendering a natural number the way `String(n)` does,
    and reading one back the way `parseInt(s, 10)` does. */
module Numbers {
  import opened Optional
  import opened Strings

  predicate IsDigit(c: char) {
    '0' <= c <= '9'
  }

  predicate AllDigits(s: string) {
    forall i :: 0 <= i < |s| ==> IsDigit(s[i])
  }

  function DigitValue(c: char): nat
    requires IsDigit(c)
  {
    c as int - '0' as int
  }

  function DigitChar(d: nat): (c: char)
    requires d < 10
    ensures IsDigit(c) && DigitValue(c) == d
  {
    ('0' as int + d) as char
  }

  /** The value of a string of decimal digits, most significant first. */
  function DigitsValue(s: string): nat
    requires AllDigits(s)
  {
    if s == [] then 0 else DigitsValue(s[..|s| - 1]) * 10 + DigitValue(s[|s| - 1])
  }

  /** `String(n)` for a natural number: non-empty, all digits, no leading
      zero, and its digits read back as `n`. */
  function Decimal(n: nat): (s: string)
    ensures |s| >= 1 && AllDigits(s)
    ensures (s[0] == '0') == (n == 0)
    ensures DigitsValue(s) == n
  {
    if n < 10 then [DigitChar(n)]
    else
      var prefix := Decimal(n / 10);
      var s := prefix + [DigitChar(n % 10)];
      assert s[..|s| - 1] == prefix;
      s
  }

  /** Distinct numbers render as distinct strings. */
  lemma DecimalInjective(m: nat, n: nat)
    requires m != n
    ensures Decimal(m) != Decimal(n)
  {
  }

  /** The longest prefix of `s` made of decimal digits. */
  function DigitPrefix(s: string): (d: string)
    ensures |d| <= |s| && d == s[..|d|] && AllDigits(d)
    ensures |d| == |s| || !IsDigit(s[|d|])
  {
    if s != [] && IsDigit(s[0]) then [s[0]] + DigitPrefix(s[1..]) else []
  }

  /** `t` (already free of leading white space) starts with a number:
      a digit, or a sign directly followed by a digit. */
  predicate StartsWithNumber(t: string) {
    || (|t| > 0 && IsDigit(t[0]))
    || (|t| > 1 && (t[0] == '+' || t[0] == '-') && IsDigit(t[1]))
  }

  /** `parseInt(s, 10)`, with `None` for NaN: leading white space is
      skipped, one optional sign is read, then the longest run of decimal
      digits; whatever follows is ignored. Precision loss beyond 2^53 is
      not modelled. */
  function ParseInt(s: string): (r: Option<int>)
    ensures r.None? <==> !StartsWithNumber(TrimStart(s))
  {
    ReadSigned(TrimStart(s))
  }

  /** The sign step of `parseInt`: one optional '+' or '-'. */
  function ReadSigned(t: string): Option<int> {
    if |t| > 0 && t[0] == '-' then
      match ReadDigits(t[1..])
      case Some(v) => Some(-v)
      case None => None
    else if |t| > 0 && t[0] == '+' then ReadDigits(t[1..])
    else ReadDigits(t)
  }

  /** The digit step of `parseInt`: the value of the leading digit run,
      NaN when there is none. */
  function ReadDigits(u: string): Option<int> {
    var d := DigitPrefix(u);
    if d == [] then None else Some(DigitsValue(d))
  }

  lemma {:induction false} DigitPrefixOf(ds: string, rest: string)
    requires AllDigits(ds) && (rest == [] || !IsDigit(rest[0]))
    ensures DigitPrefix(ds + rest) == ds
    decreases |ds|
  {
    if ds == [] {
      assert ds + rest == rest;
    } else {
      assert (ds + rest)[1..] == ds[1..] + rest;
      DigitPrefixOf(ds[1..], rest);
      assert ds == [ds[0]] + ds[1..];
    }
  }

  /** Leading white space does not change what `parseInt` reads. */
  lemma ParseIntSkipsSpace(ws: string, body: string)
    requires AllSpace(ws)
    ensures ParseInt(ws + body) == ParseInt(body)
  {
    TrimStartOfSpaces(ws, body);
  }

  lemma ReadDigitsOf(ds: string, rest: string)
    requires ds != [] && AllDigits(ds)
    requires rest == [] || !IsDigit(rest[0])
    ensures ReadDigits(ds + rest) == Some(DigitsValue(ds))
  {
    DigitPrefixOf(ds, rest);
  }

  /** Without white space or sign, `parseInt` reads the leading digit run
      and ignores whatever follows it. */
  lemma ParseIntDigits(ds: string, rest: string)
    requires ds != [] && AllDigits(ds)
    requires rest == [] || !IsDigit(rest[0])
    ensures ParseInt(ds + rest) == Some(DigitsValue(ds))
  {
    var body := ds + rest;
    TrimStartOfNonSpace(body);
    ReadSignedOfDigit(body);
    ReadDigitsOf(ds, rest);
  }

  lemma ReadSignedOfDigit(t: string)
    requires t != [] && IsDigit(t[0])
    ensures ReadSigned(t) == ReadDigits(t)
  {
  }

  /** The value a digit run stands for after an optional sign. */
  function Signed(sign: string, v: nat): int {
    if sign == "-" then -(v as int) else v
  }

  /** A sign followed by a digit run: `parseInt` negates the run's value
      for '-' and keeps it for '+'. */
  lemma SignedRead(c: char, u: string, v: nat)
    requires c == '+' || c == '-'
    requires ReadDigits(u) == Some(v)
    ensures ParseInt([c] + u) == Some(Signed([c], v))
  {
    var body := [c] + u;
    assert !IsSpace(c);
    TrimStartOfNonSpace(body);
    assert body[1..] == u;
  }

  /** Without leading white space, `parseInt` reads the optional sign and
      the digit run after it. */
  lemma SignedPrefix(sign: string, ds: string, rest: string)
    requires IsSignPrefix(sign)
    requires ds != [] && AllDigits(ds)
    requires rest == [] || !IsDigit(rest[0])
    ensures ParseInt(sign + (ds + rest)) == Some(Signed(sign, DigitsValue(ds)))
  {
    if sign == [] {
      assert sign + (ds + rest) == ds + rest;
      ParseIntDigits(ds, rest);
    } else {
      assert sign == [sign[0]];
      ReadDigitsOf(ds, rest);
      SignedRead(sign[0], ds + rest, DigitsValue(ds));
    }
  }

  /** `parseInt` reads exactly the leading digit run, after white space
      and an optional sign, and ignores whatever follows it. */
  lemma ParseIntReadsPrefix(ws: string, sign: string, ds: string, rest: string)
    requires AllSpace(ws)
    requires IsSignPrefix(sign)
    requires ds != [] && AllDigits(ds)
    requires rest == [] || !IsDigit(rest[0])
    ensures ParseInt(ws + sign + ds + rest) == Some(Signed(sign, DigitsValue(ds)))
  {
    var t := sign + (ds + rest);
    assert ws + sign + ds + rest == ws + t;
    ParseIntSkipsSpace(ws, t);
    SignedPrefix(sign, ds, rest);
  }

  /** No sign, or one '+' or '-'. */
  predicate IsSignPrefix(sign: string) {
    |sign| <= 1 && (sign == [] || sign[0] == '+' || sign[0] == '-')
  }

  /** A rendered number after white space, followed by anything that is
      not a digit, is read back as that number. */
  lemma ParseIntLeadingNumber(ws: string, n: nat, rest: string)
    requires AllSpace(ws)
    requires rest == [] || !IsDigit(rest[0])
    ensures ParseInt(ws + Decimal(n) + rest) == Some(n)
  {
    var d := Decimal(n);
    var t := d + rest;
    assert ws + d + rest == ws + t;
    ParseIntSkipsSpace(ws, t);
    ParseIntDigits(d, rest);
  }

  /** Reading back a rendered number gives the number. */
  lemma ParseIntDecimal(n: nat)
    ensures ParseInt(Decimal(n)) == Some(n)
  {
    ParseIntDigits(Decimal(n), "");
    assert Decimal(n) + "" == Decimal(n);
  }

  // `Number(s)` for a string: whether StringToNumber (section 7.1.4.1.1 of
  // ECMA-262) gives a number or NaN. The value itself is not modelled.

  /** The index of the first exponent mark `e` or `E` at or after `i`, or
      `|u|`. */
  function ExponentMark(u: string, i: nat): (k: nat)
    requires i <= |u|
    ensures i <= k <= |u|
    ensures forall j :: i <= j < k ==> u[j] != 'e' && u[j] != 'E'
    ensures k == |u| || u[k] == 'e' || u[k] == 'E'
    decreases |u| - i
  {
    if i == |u| || u[i] == 'e' || u[i] == 'E' then i else ExponentMark(u, i + 1)
  }

  /** Decimal digits with at most one point among them: `1`, `1.`, `1.5`
      or `.5`. */
  predicate IsMantissa(m: string) {
    && (forall j :: 0 <= j < |m| ==> IsDigit(m[j]) || m[j] == '.')
    && Count(m, '.') <= 1
    && exists j :: 0 <= j < |m| && IsDigit(m[j])
  }

  /** An exponent part or nothing: `e` or `E`, an optional sign, then at
      least one digit. */
  predicate IsExponentPart(x: string) {
    || x == []
    || (&& |x| >= 2 && (x[0] == 'e' || x[0] == 'E')
        && var d := if x[1] == '+' || x[1] == '-' then x[2..] else x[1..];
           d != [] && AllDigits(d))
  }

  /** StrUnsignedDecimalLiteral: `Infinity`, or a mantissa followed by an
      optional exponent part. The mantissa has no `e`, so the first mark
      is where the exponent starts. */
  predicate IsUnsignedDecimal(u: string) {
    || u == "Infinity"
    || (var k := ExponentMark(u, 0); IsMantissa(u[..k]) && IsExponentPart(u[k..]))
  }

  predicate IsRadixDigit(c: char, radix: char) {
    if radix == 'x' || radix == 'X' then IsDigit(c) || ('a' <= c <= 'f') || ('A' <= c <= 'F')
    else if radix == 'o' || radix == 'O' then '0' <= c <= '7'
    else c == '0' || c == '1'
  }

  /** NonDecimalIntegerLiteral: `0x`, `0o` or `0b` in either case, then at
      least one digit of that base; no sign is allowed. */
  predicate IsRadixInteger(t: string) {
    && |t| >= 3 && t[0] == '0'
    && (t[1] == 'x' || t[1] == 'X' || t[1] == 'o' || t[1] == 'O' || t[1] == 'b' || t[1] == 'B')
    && forall j :: 2 <= j < |t| ==> IsRadixDigit(t[j], t[1])
  }

  /** `Number(s)` is not NaN: once white space is trimmed from both ends,
      the text is a numeric literal. */
  predicate IsNumericText(s: string) {
    IsNumericLiteral(Trim(s))
  }

  /** Trimmed text that is empty (which is 0), a decimal literal with an
      optional sign, or a `0x`/`0o`/`0b` integer. */
  predicate IsNumericLiteral(t: string) {
    || t == []
    || IsRadixInteger(t)
    || (if t[0] == '+' || t[0] == '-' then IsUnsignedDecimal(t[1..]) else IsUnsignedDecimal(t))
  }

  /** No numeric literal contains a comma, wherever it stands. */
  lemma CommaNotNumeric(s: string)
    requires ',' in s
    ensures !IsNumericText(s)
  {
    var p :| 0 <= p < |s| && s[p] == ',';
    assert s[p..p + 1] == [','];
    assert OccursAt(s, [','], p);
    TrimKeepsInner(s, [',']);
    var t := Trim(s);
    var q: nat :| q <= |t| && OccursAt(t, [','], q);
    assert t[q..q + 1][0] == ',';
    CommaNotRadix(t, q);
    if t[0] == '+' || t[0] == '-' {
      assert t[1..][q - 1] == ',';
      CommaNotDecimal(t[1..], q - 1);
    } else {
      CommaNotDecimal(t, q);
    }
  }

  lemma CommaNotRadix(t: string, q: nat)
    requires q < |t| && t[q] == ','
    ensures !IsRadixInteger(t)
  {
  }

  lemma CommaNotDecimal(u: string, p: nat)
    requires p < |u| && u[p] == ','
    ensures !IsUnsignedDecimal(u)
  {
    var k := ExponentMark(u, 0);
    if p < k {
      assert u[..k][p] == ',';
    } else {
      CommaNotExponent(u[k..], p - k);
    }
  }

  lemma CommaNotExponent(x: string, p: nat)
    requires p < |x| && x[p] == ','
    ensures !IsExponentPart(x)
  {
    if p >= 2 && (x[1] == '+' || x[1] == '-') {
      assert x[2..][p - 2] == ',';
    } else if p >= 1 {
      assert x[1..][p - 1] == ',';
    }
  }

  /** Text that starts with neither a digit, a point, a sign, `I` (of
      `Infinity`) nor white space is not a number: `true`, `false` and
      `[object Object]` are such texts. */
  lemma WordNotNumeric(t: string)
    requires t != [] && IsTrimmed(t)
    requires !IsDigit(t[0]) && t[0] != '.' && t[0] != '+' && t[0] != '-' && t[0] != 'I'
    ensures !IsNumericText(t)
  {
    TrimOfTrimmed(t);
    var k := ExponentMark(t, 0);
    if k > 0 {
      assert t[..k][0] == t[0];
    }
  }

  /** A run of decimal digits, with an optional sign and white space
      around it, is a number. */
  lemma NumeralNumeric(a: string, sign: string, d: string, b: string)
    requires AllSpace(a) && AllSpace(b) && IsSignPrefix(sign)
    requires d != [] && AllDigits(d)
    ensures IsNumericText(a + sign + d + b)
  {
    var m := sign + d;
    assert IsTrimmed(m) by {
      assert IsDigit(m[|m| - 1]) by { assert m[|m| - 1] == d[|d| - 1]; }
      assert IsDigit(m[0]) || m[0] == '+' || m[0] == '-' by {
        if sign == [] { assert m[0] == d[0]; } else { assert m[0] == sign[0]; }
      }
    }
    SignedDecimalNumeric(sign, d);
    assert a + sign + d + b == a + m + b;
    TrimUnique(a, m, b);
  }

  lemma SignedDecimalNumeric(sign: string, d: string)
    requires IsSignPrefix(sign) && d != [] && AllDigits(d)
    ensures IsNumericLiteral(sign + d)
  {
    var m := sign + d;
    DecimalIsUnsigned(d);
    if sign == [] {
      assert m == d;
    } else {
      assert m[1..] == d;
    }
  }

  lemma DecimalIsUnsigned(d: string)
    requires d != [] && AllDigits(d)
    ensures IsUnsignedDecimal(d)
  {
    var k := ExponentMark(d, 0);
    assert d[..k] == d;
    CountAbsent(d, '.');
    assert IsDigit(d[0]);
  }
}

=== FILE: optional.dfy ===
/** Presence of a value. */
module Optional {

  /** A JavaScript value that may be missing: `None` is what the source
      sees as `undefined` (or `null`) when it asks whether a key, a header
      or a match is there. */
  datatype Option<+T> = None | Some(value: T)
}

=== FILE: seed_forms.dfy ===
/** The seed script's reconciliation step: the sample forms are split into
    those whose slug is already stored (to be updated in place) and the
    rest (to be created), and the run reports how many of each it handled.
    The database is not visible here: the documents the slug query found
    are an input, and the form schemas are left out of the samples. */
module SeedForms {
  import opened Optional
  import opened Forms

  /** A sample form definition, reduced to what the reconciliation reads
      and the fields that identify it. */
  datatype SampleForm = SampleForm(title: string, slug: string, status: FormStatus)

  /** A stored form the slug query returned. */
  datatype StoredForm = StoredForm(id: int, slug: string)

  /** One call the script makes on the forms collection. */
  datatype Action = Update(id: int, form: SampleForm) | Create(form: SampleForm)

  /** The closing report: the counts it prints, and whether it printed
      that every form already existed. */
  datatype Report = Report(updated: nat, created: nat, allExist: bool)

  /** The samples, in the order the script lists them. */
  function SampleForms(): (r: seq<SampleForm>)
    ensures |r| == 7
    ensures forall i :: 0 <= i < |r| ==> r[i].status == Published
  {
    [ SampleForm("Employee Feedback Form", "employee-feedback", Published),
      SampleForm("Contact Us Form", "contact-us", Published),
      SampleForm("Job Application Form", "job-application", Published),
      SampleForm("Customer Satisfaction Survey", "customer-satisfaction-survey", Published),
      SampleForm("Personal Information", "personal-information", Published),
      SampleForm("Contact Details", "contact-detail", Published),
      SampleForm("DHS Application Counselor Commitment", "dhs-application-counselor-commitment", Published) ]
  }

  predicate DistinctSlugs(forms: seq<SampleForm>) {
    forall i, j :: 0 <= i < j < |forms| ==> forms[i].slug != forms[j].slug
  }

  /** The samples never collide on the collection's unique slug. */
  lemma SampleSlugsDistinct()
    ensures DistinctSlugs(SampleForms())
  {
    var r := SampleForms();
    var lengths := [17, 10, 15, 28, 20, 14, 36];
    assert forall i :: 0 <= i < 7 ==> |r[i].slug| == lengths[i];
    forall i, j | 0 <= i < j < 7
      ensures r[i].slug != r[j].slug
    {
      assert lengths[i] != lengths[j];
    }
  }

  /** `new Set(existingForms.docs.map(f => f.slug))`. */
  function ExistingSlugs(docs: seq<StoredForm>): (r: set<string>)
    ensures forall s :: s in r <==> exists i :: 0 <= i < |docs| && docs[i].slug == s
  {
    set i | 0 <= i < |docs| :: docs[i].slug
  }

  /** The samples whose slug is (`stored`) or is not (`!stored`) among the
      existing slugs, in their original order. */
  function Select(samples: seq<SampleForm>, existing: set<string>, stored: bool): (r: seq<SampleForm>)
    ensures |r| <= |samples|
    ensures forall f :: f in r <==> f in samples && (f.slug in existing) == stored
  {
    if samples == [] then []
    else
      var rest := Select(samples[1..], existing, stored);
      if (samples[0].slug in existing) == stored then [samples[0]] + rest else rest
  }

  function NewForms(samples: seq<SampleForm>, existing: set<string>): seq<SampleForm> {
    Select(samples, existing, false)
  }

  function UpdateForms(samples: seq<SampleForm>, existing: set<string>): seq<SampleForm> {
    Select(samples, existing, true)
  }

  /** Every sample lands in exactly one of the two lists, as often as it
      occurs in the samples. */
  lemma {:induction false} Partition(samples: seq<SampleForm>, existing: set<string>)
    ensures multiset(NewForms(samples, existing)) + multiset(UpdateForms(samples, existing)) == multiset(samples)
    ensures |NewForms(samples, existing)| + |UpdateForms(samples, existing)| == |samples|
    decreases |samples|
  {
    if samples != [] {
      Partition(samples[1..], existing);
      assert samples == [samples[0]] + samples[1..];
    }
  }

  /** `xs` is `ys` with some elements left out, the rest in their order. */
  predicate IsSubsequence(xs: seq<SampleForm>, ys: seq<SampleForm>)
    decreases |ys|
  {
    if xs == [] then true
    else if ys == [] then false
    else (xs[0] == ys[0] && IsSubsequence(xs[1..], ys[1..])) || IsSubsequence(xs, ys[1..])
  }

  /** Both lists keep the samples' relative order. */
  lemma {:induction false} SelectKeepsOrder(samples: seq<SampleForm>, existing: set<string>, stored: bool)
    ensures IsSubsequence(Select(samples, existing, stored), samples)
    decreases |samples|
  {
    if samples != [] {
      SelectKeepsOrder(samples[1..], existing, stored);
      var r := Select(samples, existing, stored);
      if (samples[0].slug in existing) == stored {
        assert r[1..] == Select(samples[1..], existing, stored);
      }
    }
  }

  /** `existingForms.docs.find(f => f.slug === formData.slug)`: the first
      document, in query order, with the slug. */
  function FindBySlug(docs: seq<StoredForm>, slug: string): (r: Option<StoredForm>)
    ensures r.Some? ==> r.value in docs && r.value.slug == slug
    ensures r.Some? ==> exists i :: 0 <= i < |docs| && docs[i] == r.value &&
                                    forall j :: 0 <= j < i ==> docs[j].slug != slug
    ensures r.None? <==> slug !in ExistingSlugs(docs)
  {
    if docs == [] then None
    else if docs[0].slug == slug then Some(docs[0])
    else
      var r := FindBySlug(docs[1..], slug);
      assert forall i :: 1 <= i < |docs| ==> docs[1..][i - 1] == docs[i];
      if r.Some? then
        var k :| 0 <= k < |docs[1..]| && docs[1..][k] == r.value &&
                 forall j :: 0 <= j < k ==> docs[1..][j].slug != slug;
        assert docs[k + 1] == r.value;
        assert forall j :: 0 <= j < k + 1 ==> docs[j].slug != slug;
        r
      else r
  }

  /** The calls the script makes, in order: an update for each form to
      update whose stored document is found, then a create for each new
      form. */
  function Plan(samples: seq<SampleForm>, docs: seq<StoredForm>): seq<Action> {
    var existing := ExistingSlugs(docs);
    Updates(UpdateForms(samples, existing), docs) + Creates(NewForms(samples, existing))
  }

  function Updates(forms: seq<SampleForm>, docs: seq<StoredForm>): seq<Action> {
    if forms == [] then []
    else
      (match FindBySlug(docs, forms[0].slug)
       case Some(d) => [Update(d.id, forms[0])]
       case None => [])
      + Updates(forms[1..], docs)
  }

  function Creates(forms: seq<SampleForm>): seq<Action> {
    if forms == [] then [] else [Create(forms[0])] + Creates(forms[1..])
  }

  /** The closing report of a run. */
  function Summary(samples: seq<SampleForm>, docs: seq<StoredForm>): Report {
    var existing := ExistingSlugs(docs);
    var updates := UpdateForms(samples, existing);
    var creates := NewForms(samples, existing);
    Report(|updates|, |creates|, |creates| == 0 && |updates| == 0)
  }

  /** A sample is updated exactly when its slug was found, and created
      exactly when it was not. */
  lemma Membership(samples: seq<SampleForm>, docs: seq<StoredForm>, f: SampleForm)
    requires f in samples
    ensures f in UpdateForms(samples, ExistingSlugs(docs)) <==> exists i :: 0 <= i < |docs| && docs[i].slug == f.slug
    ensures f in NewForms(samples, ExistingSlugs(docs)) <==> !exists i :: 0 <= i < |docs| && docs[i].slug == f.slug
  {
  }

  /** Every form to update has a stored document, so no update is skipped,
      and each update targets a document with the form's own slug. */
  lemma {:induction false} UpdatesTargetSameSlug(forms: seq<SampleForm>, docs: seq<StoredForm>)
    requires forall k :: 0 <= k < |forms| ==> forms[k].slug in ExistingSlugs(docs)
    ensures |Updates(forms, docs)| == |forms|
    ensures forall k :: 0 <= k < |forms| ==>
              && Updates(forms, docs)[k].Update?
              && Updates(forms, docs)[k].form == forms[k]
              && exists d :: d in docs && d.id == Updates(forms, docs)[k].id && d.slug == forms[k].slug
    decreases |forms|
  {
    if forms != [] {
      UpdatesTargetSameSlug(forms[1..], docs);
      var d := FindBySlug(docs, forms[0].slug).value;
      var rest := Updates(forms[1..], docs);
      assert Updates(forms, docs) == [Update(d.id, forms[0])] + rest;
      forall k | 1 <= k < |forms|
        ensures exists e :: e in docs && e.id == Updates(forms, docs)[k].id && e.slug == forms[k].slug
      {
        assert Updates(forms, docs)[k] == rest[k - 1];
        assert forms[k] == forms[1..][k - 1];
      }
    }
  }

  lemma {:induction false} CreatesAll(forms: seq<SampleForm>)
    ensures |Creates(forms)| == |forms|
    ensures forall k :: 0 <= k < |forms| ==> Creates(forms)[k] == Create(forms[k])
    decreases |forms|
  {
    if forms != [] {
      CreatesAll(forms[1..]);
    }
  }

  /** A run updates every sample whose slug exists, in sample order, and
      then creates every other sample, in sample order: one call per
      sample. */
  lemma PlanCoversSamples(samples: seq<SampleForm>, docs: seq<StoredForm>)
    ensures var existing := ExistingSlugs(docs);
            var ups := UpdateForms(samples, existing);
            var news := NewForms(samples, existing);
            var plan := Plan(samples, docs);
            && |plan| == |ups| + |news| == |samples|
            && (forall k :: 0 <= k < |ups| ==>
                  plan[k].Update? && plan[k].form == ups[k]
                  && exists d :: d in docs && d.id == plan[k].id && d.slug == ups[k].slug)
            && (forall k :: 0 <= k < |news| ==> plan[|ups| + k] == Create(news[k]))
  {
    var existing := ExistingSlugs(docs);
    var ups := UpdateForms(samples, existing);
    var news := NewForms(samples, existing);
    forall k | 0 <= k < |ups|
      ensures ups[k].slug in existing
    {
      assert ups[k] in ups;
    }
    UpdatesTargetSameSlug(ups, docs);
    CreatesAll(news);
    Partition(samples, existing);
    var us, cs := Updates(ups, docs), Creates(news);
    var plan := Plan(samples, docs);
    assert plan == us + cs;
    assert forall k :: 0 <= k < |ups| ==> plan[k] == us[k];
    assert forall k :: 0 <= k < |news| ==> plan[|ups| + k] == cs[k];
  }

  /** The printed counts add up to the number of samples, and "All forms
      already exist" is printed only when there are no samples at all:
      every sample is either updated or created. */
  lemma SummaryCounts(samples: seq<SampleForm>, docs: seq<StoredForm>)
    ensures Summary(samples, docs).updated + Summary(samples, docs).created == |samples|
    ensures Summary(samples, docs).allExist <==> samples == []
  {
    Partition(samples, ExistingSlugs(docs));
  }

  /** For the script's own seven samples the branch never runs. */
  lemma SeedNeverReportsAllExist(docs: seq<StoredForm>)
    ensures !Summary(SampleForms(), docs).allExist
    ensures Summary(SampleForms(), docs).updated + Summary(SampleForms(), docs).created == 7
  {
    SummaryCounts(SampleForms(), docs);
  }
}

=== FILE: strings.dfy ===
/** The JavaScript string operations the core relies on: `trim`, `split`
    on one character, `join`, `startsWith`, `includes`, with the
    ECMAScript notion of white space. */
module Strings {

  /** ECMAScript WhiteSpace or LineTerminator: the characters `trim` and
      `parseInt` skip (TAB, VT, FF, SP, NBSP, ZWNBSP, the Zs category,
      LF, CR, LS, PS). */
  predicate IsSpace(c: char) {
    || c == '\t' || c == '\U{000B}' || c == '\U{000C}' || c == ' '
    || c == '\U{00A0}' || c == '\U{FEFF}' || c == '\U{1680}'
    || ('\U{2000}' <= c <= '\U{200A}')
    || c == '\U{202F}' || c == '\U{205F}' || c == '\U{3000}'
    || c == '\n' || c == '\r' || c == '\U{2028}' || c == '\U{2029}'
  }

  predicate AllSpace(s: string) {
    forall i :: 0 <= i < |s| ==> IsSpace(s[i])
  }

  /** True when `s` has no white space at either end. */
  predicate IsTrimmed(s: string) {
    s == [] || (!IsSpace(s[0]) && !IsSpace(s[|s| - 1]))
  }

  /** The index of the first character at or after `i` that is not white
      space, or `|s|`. */
  function SkipSpace(s: string, i: nat): (k: nat)
    requires i <= |s|
    ensures i <= k <= |s|
    ensures forall j :: i <= j < k ==> IsSpace(s[j])
    ensures k == |s| || !IsSpace(s[k])
    decreases |s| - i
  {
    if i < |s| && IsSpace(s[i]) then SkipSpace(s, i + 1) else i
  }

  /** The end of `s[lo..e]` once trailing white space is dropped. */
  function BackSpace(s: string, lo: nat, e: nat): (k: nat)
    requires lo <= e <= |s|
    ensures lo <= k <= e
    ensures forall j :: k <= j < e ==> IsSpace(s[j])
    ensures k == lo || !IsSpace(s[k - 1])
    decreases e
  {
    if lo < e && IsSpace(s[e - 1]) then BackSpace(s, lo, e - 1) else e
  }

  /** `SkipSpace` stops at the first non-space character and nowhere else. */
  lemma {:induction false} SkipSpaceAt(s: string, i: nat, k: nat)
    requires i <= k <= |s|
    requires forall j :: i <= j < k ==> IsSpace(s[j])
    requires k == |s| || !IsSpace(s[k])
    ensures SkipSpace(s, i) == k
    decreases |s| - i
  {
    if i < k {
      SkipSpaceAt(s, i + 1, k);
    }
  }

  /** `BackSpace` stops after the last non-space character and nowhere else. */
  lemma {:induction false} BackSpaceAt(s: string, lo: nat, e: nat, k: nat)
    requires lo <= k <= e <= |s|
    requires forall j :: k <= j < e ==> IsSpace(s[j])
    requires k == lo || !IsSpace(s[k - 1])
    ensures BackSpace(s, lo, e) == k
    decreases e
  {
    if k < e {
      BackSpaceAt(s, lo, e - 1, k);
    }
  }

  /** `String.prototype.trimStart`. */
  function TrimStart(s: string): (r: string)
    ensures |r| <= |s| && r == s[|s| - |r|..]
    ensures AllSpace(s[..|s| - |r|])
    ensures r == [] || !IsSpace(r[0])
  {
    var k := SkipSpace(s, 0);
    assert forall j :: 0 <= j < k ==> s[..k][j] == s[j];
    s[k..]
  }

  /** `r` is `s` with the white space `s[..i]` and `s[i + |r|..]` cut off. */
  ghost predicate TrimmedAt(s: string, r: string, i: nat) {
    && i + |r| <= |s|
    && r == s[i..i + |r|]
    && AllSpace(s[..i])
    && AllSpace(s[i + |r|..])
  }

  /** `String.prototype.trim`: the longest white-space-free-ended middle. */
  function Trim(s: string): (r: string)
    ensures TrimmedAt(s, r, |s| - |TrimStart(s)|)
    ensures IsTrimmed(r)
  {
    var i := SkipSpace(s, 0);
    var e := BackSpace(s, i, |s|);
    assert forall j :: 0 <= j < i ==> s[..i][j] == s[j];
    assert forall j :: 0 <= j < |s| - e ==> s[e..][j] == s[e + j];
    s[i..e]
  }

  /** Trimming finds the unique trimmed middle: whatever white space
      surrounds a trimmed string is removed and nothing else. */
  lemma TrimUnique(a: string, m: string, b: string)
    requires AllSpace(a) && AllSpace(b) && IsTrimmed(m)
    ensures Trim(a + m + b) == m
  {
    var s := a + m + b;
    assert forall j :: 0 <= j < |a| ==> s[j] == a[j];
    assert forall j :: |a| + |m| <= j < |s| ==> s[j] == b[j - |a| - |m|];
    if m == [] {
      SkipSpaceAt(s, 0, |s|);
    } else {
      assert s[|a|] == m[0] && s[|a| + |m| - 1] == m[|m| - 1];
      SkipSpaceAt(s, 0, |a|);
      BackSpaceAt(s, |a|, |s|, |a| + |m|);
      assert s[|a|..|a| + |m|] == m;
    }
  }

  lemma TrimStartOfNonSpace(s: string)
    requires s != [] && !IsSpace(s[0])
    ensures TrimStart(s) == s
  {
  }

  /** Leading white space does not change what `trimStart` leaves. */
  lemma TrimStartOfSpaces(a: string, t: string)
    requires AllSpace(a)
    ensures TrimStart(a + t) == TrimStart(t)
  {
    var s := a + t;
    var k := SkipSpace(t, 0);
    assert forall j :: 0 <= j < |a| ==> s[j] == a[j];
    assert forall j :: |a| <= j < |s| ==> s[j] == t[j - |a|];
    SkipSpaceAt(s, 0, |a| + k);
    assert s[|a| + k..] == t[k..];
  }

  /** A trimmed string is its own trim. */
  lemma TrimOfTrimmed(m: string)
    requires IsTrimmed(m)
    ensures Trim(m) == m
  {
    assert [] + m + [] == m;
    TrimUnique([], m, []);
  }

  /** `String.prototype.startsWith`. */
  predicate StartsWith(s: string, p: string) {
    |p| <= |s| && s[..|p|] == p
  }

  /** `m` occurs in `s` starting at index `i`. */
  predicate OccursAt(s: string, m: string, i: nat) {
    i + |m| <= |s| && s[i..i + |m|] == m
  }

  /** `String.prototype.includes`: `m` occurs somewhere in `s`. */
  predicate Contains(s: string, m: string) {
    exists i: nat | i <= |s| :: OccursAt(s, m, i)
  }

  lemma ContainsMiddle(a: string, m: string, b: string)
    ensures Contains(a + m + b, m)
  {
    var s := a + m + b;
    assert s[|a|..|a| + |m|] == m;
    assert OccursAt(s, m, |a|);
  }

  /** Trimming never cuts into a substring whose end characters are not
      white space. */
  lemma {:induction false} TrimKeepsInner(s: string, m: string)
    requires Contains(s, m) && m != [] && IsTrimmed(m)
    ensures Contains(Trim(s), m)
  {
    var p: nat :| p <= |s| && OccursAt(s, m, p);
    var r := Trim(s);
    var i := |s| - |TrimStart(s)|;
    assert TrimmedAt(s, r, i);
    var e := p + |m| - 1;
    assert s[p] == m[0] && s[e] == m[|m| - 1];
    InnerOccurrence(s, r, m, i, p);
  }

  /** An occurrence inside the trimmed window is an occurrence in the trim. */
  lemma InnerOccurrence(s: string, r: string, m: string, i: nat, p: nat)
    requires i + |r| <= |s| && r == s[i..i + |r|]
    requires i <= p && p + |m| <= i + |r| && OccursAt(s, m, p)
    ensures Contains(r, m)
  {
    var q := p - i;
    forall k | 0 <= k < |m|
      ensures r[q..q + |m|][k] == m[k]
    {
      assert r[q + k] == s[p + k];
      assert s[p..p + |m|][k] == s[p + k];
    }
    assert r[q..q + |m|] == m;
    assert OccursAt(r, m, q);
  }

  /** The characters of `s` that equal `c`. */
  function Count(s: string, c: char): nat {
    if s == [] then 0 else (if s[0] == c then 1 else 0) + Count(s[1..], c)
  }

  lemma {:induction false} CountConcat(a: string, b: string, c: char)
    ensures Count(a + b, c) == Count(a, c) + Count(b, c)
    decreases |a|
  {
    if a == [] {
      assert a + b == b;
    } else {
      assert (a + b)[1..] == a[1..] + b;
      CountConcat(a[1..], b, c);
    }
  }

  lemma {:induction false} CountAbsent(s: string, c: char)
    requires c !in s
    ensures Count(s, c) == 0
    decreases |s|
  {
    if s != [] {
      CountAbsent(s[1..], c);
    }
  }

  /** Index of the first `c` in `s`. */
  function IndexOf(s: string, c: char): (i: nat)
    requires c in s
    ensures i < |s| && s[i] == c && c !in s[..i]
  {
    if s[0] == c then 0 else 1 + IndexOf(s[1..], c)
  }

  /** The first `c` is the one with no `c` before it. */
  lemma IndexOfAt(s: string, c: char, i: nat)
    requires i < |s| && s[i] == c && c !in s[..i]
    ensures IndexOf(s, c) == i
  {
  }

  /** `parts` glued with `sep` between consecutive parts (`Array.prototype.join`). */
  function Join(parts: seq<string>, sep: string): string {
    if |parts| == 0 then ""
    else if |parts| == 1 then parts[0]
    else parts[0] + sep + Join(parts[1..], sep)
  }

  /** `String.prototype.split` on a one-character separator: always at
      least one part, no part holds the separator, and joining the parts
      back gives the original string. */
  function Split(s: string, sep: char): (parts: seq<string>)
    ensures |parts| >= 1
    ensures forall k :: 0 <= k < |parts| ==> sep !in parts[k]
    ensures Join(parts, [sep]) == s
    decreases |s|
  {
    if sep !in s then [s]
    else
      var i := IndexOf(s, sep);
      var rest := Split(s[i + 1..], sep);
      assert ([s[..i]] + rest)[1..] == rest;
      assert s == s[..i] + [sep] + s[i + 1..];
      [s[..i]] + rest
  }

  /** The first part of a split is the text before the first separator. */
  lemma SplitHead(first: string, rest: string, sep: char)
    requires sep !in first
    requires rest == [] || rest[0] == sep
    ensures Split(first + rest, sep)[0] == first
  {
    var s := first + rest;
    if rest == [] {
      assert s == first;
    } else {
      assert s[|first|] == sep;
      assert s[..|first|] == first;
      IndexOfAt(s, sep, |first|);
    }
  }

  /** Splitting undoes joining when no part holds the separator. */
  lemma {:induction false} SplitJoin(parts: seq<string>, sep: char)
    requires |parts| >= 1
    requires forall k :: 0 <= k < |parts| ==> sep !in parts[k]
    ensures Split(Join(parts, [sep]), sep) == parts
    decreases |parts|
  {
    if |parts| > 1 {
      var a := parts[0];
      var j := Join(parts[1..], [sep]);
      var s := a + [sep] + j;
      assert s[|a|] == sep;
      assert s[..|a|] == a;
      IndexOfAt(s, sep, |a|);
      assert s[|a| + 1..] == j;
      SplitJoin(parts[1..], sep);
      assert Split(s, sep) == [a] + Split(j, sep);
      assert parts == [a] + parts[1..];
    }
  }

  /** Every character of a joined string comes from a part or the separator. */
  lemma {:induction false} JoinChars(parts: seq<string>, sep: string, c: char)
    requires c in Join(parts, sep)
    ensures c in sep || exists k :: 0 <= k < |parts| && c in parts[k]
    decreases |parts|
  {
    if |parts| > 1 {
      var rest := Join(parts[1..], sep);
      if c !in parts[0] && c !in sep {
        assert c in rest;
        JoinChars(parts[1..], sep, c);
        var k :| 0 <= k < |parts[1..]| && c in parts[1..][k];
        assert c in parts[k + 1];
      }
    }
  }

  /** A substring of one part is a substring of the joined string. */
  lemma {:induction false} JoinContains(parts: seq<string>, sep: string, k: nat, m: string)
    requires k < |parts| && Contains(parts[k], m)
    ensures Contains(Join(parts, sep), m)
    decreases |parts|
  {
    if |parts| == 1 {
    } else if k == 0 {
      var p: nat :| p <= |parts[0]| && OccursAt(parts[0], m, p);
      assert parts[0] == parts[0][..p] + m + parts[0][p + |m|..];
      var s := Join(parts, sep);
      assert s == parts[0][..p] + m + (parts[0][p + |m|..] + sep + Join(parts[1..], sep));
      ContainsMiddle(parts[0][..p], m, parts[0][p + |m|..] + sep + Join(parts[1..], sep));
    } else {
      JoinContains(parts[1..], sep, k - 1, m);
      var rest := Join(parts[1..], sep);
      var p: nat :| p <= |rest| && OccursAt(rest, m, p);
      var pre := parts[0] + sep;
      assert Join(parts, sep) == pre + rest;
      assert (pre + rest)[|pre| + p..|pre| + p + |m|] == m;
      assert OccursAt(pre + rest, m, |pre| + p);
    }
  }

  /** Trimming only removes characters. */
  lemma TrimChars(s: string, c: char)
    requires c in Trim(s)
    ensures c in s
  {
    var r := Trim(s);
    var i := |s| - |TrimStart(s)|;
    assert TrimmedAt(s, r, i);
    var j :| 0 <= j < |r| && r[j] == c;
    assert s[i + j] == c;
  }

  /** Every character of a part is a character of the joined string. */
  lemma JoinHas(parts: seq<string>, sep: string, k: nat, c: char)
    requires k < |parts| && c in parts[k]
    ensures c in Join(parts, sep)
  {
    var i :| 0 <= i < |parts[k]| && parts[k][i] == c;
    assert parts[k][i..i + 1] == [c];
    assert OccursAt(parts[k], [c], i);
    JoinContains(parts, sep, k, [c]);
    var j: nat :| j <= |Join(parts, sep)| && OccursAt(Join(parts, sep), [c], j);
    assert Join(parts, sep)[j] == c;
  }

  /** Splitting only cuts a string into pieces. */
  lemma SplitChars(s: string, sep: char, k: nat, c: char)
    requires k < |Split(s, sep)| && c in Split(s, sep)[k]
    ensures c in s
  {
    JoinHas(Split(s, sep), [sep], k, c);
  }

  /** A substring stays a substring when text is appended. */
  lemma ContainsAppend(s: string, m: string, t: string)
    requires Contains(s, m)
    ensures Contains(s + t, m)
  {
    var p: nat :| p <= |s| && OccursAt(s, m, p);
    assert (s + t)[p..p + |m|] == s[p..p + |m|];
    assert OccursAt(s + t, m, p);
  }
}

=== FILE: submit_route.dfy ===
/** The form-submission endpoint: `POST` validates `{formId, data}` in a
    fixed order, derives the submitter e-mail and request metadata, drops
    the widget's button keys and hands one record to the store; `OPTIONS`
    answers the CORS preflight. The document store is not visible here: the
    outcome of `findByID` and of `create` are inputs. */
module SubmitRoute {
  import opened Optional
  import opened Strings
  import opened Numbers
  import opened Json
  import opened Forms

  /** The request headers the handler reads; `None` when a header is absent. */
  datatype Headers = Headers(forwardedFor: Option<string>, realIp: Option<string>, userAgent: Option<string>)

  /** What `findByID` on the forms collection did. */
  datatype Lookup = Found(status: FormStatus) | NotFound | LookupThrows

  /** What `create` on the submissions collection did. */
  datatype Creation = Created(id: Value) | CreateThrows

  /** The record handed to `create`. */
  datatype Submission = Submission(
    form: Value,
    data: Value,
    submitterEmail: Option<string>,
    ipAddress: string,
    userAgent: string)

  datatype Reply = Reply(status: nat, body: Value)

  /** One run of the handler: the id `findByID` was asked for (if it was
      reached), the record `create` stored (if it returned), and the reply. */
  datatype Handled = Handled(lookedUp: Option<Value>, created: Option<Submission>, reply: Reply)

  const MissingMessage := "Missing formId or data"
  const InvalidIdMessage := "Invalid form ID"
  const NotFoundMessage := "Form not found"
  const NotAvailableMessage := "Form is not available for submissions"
  const FailureMessage := "Failed to submit form"
  const SuccessMessage := "Form submitted successfully"

  /** Every text an error reply can carry. */
  const ErrorMessages: set<string> :=
    {MissingMessage, InvalidIdMessage, NotFoundMessage, NotAvailableMessage, FailureMessage}

  /** Candidate e-mail keys, in order of preference. */
  const EmailFields: seq<string> := ["email", "Email", "EMAIL", "e-mail", "emailAddress"]

  /** Keys the rendering widget adds for its buttons. */
  const ButtonKeys: set<string> := {"submit", "cancel"}

  const UserAgentLimit := 500

  function ErrorReply(status: nat, message: string): (r: Reply)
    ensures r.status == status
    ensures Field(r.body, "error") == Some(Str(message))
    ensures Field(r.body, "success").None?
  {
    Reply(status, Object([("error", Str(message))]))
  }

  /** `{success: true, submissionId, message}` with status 200. */
  function SuccessReply(id: Value): (r: Reply)
    ensures r.status == 200
    ensures Field(r.body, "success") == Some(Bool(true))
    ensures Field(r.body, "submissionId") == Some(id)
    ensures Field(r.body, "message") == Some(Str(SuccessMessage))
    ensures Field(r.body, "error").None?
  {
    var m3 := [("message", Str(SuccessMessage))];
    var m2 := [("submissionId", id)] + m3;
    var m1 := [("success", Bool(true))] + m2;
    GetCons(m1[0], m2, "submissionId");
    GetCons(m2[0], m3, "submissionId");
    GetCons(m1[0], m2, "message");
    GetCons(m2[0], m3, "message");
    GetCons(m1[0], m2, "error");
    GetCons(m2[0], m3, "error");
    Reply(200, Object(m1))
  }

  predicate IsTruthy(v: Option<Value>) {
    v.Some? && Truthy(v.value)
  }

  /** `Number(a)` for an array `a` is not NaN. `Number` reads the text of
      `a.join(',')`, in which `null` is empty, a nested array is its own
      join, and `true`, `false` and an object are the words `true`, `false`
      and `[object Object]`. An empty array is therefore 0; two or more
      elements put a comma into the text, so never a number; one element
      decides by its own text. */
  predicate ArrayIsNumeric(a: Value)
    requires a.Array?
  {
    if |a.items| == 0 then true
    else if |a.items| >= 2 then false
    else
      match a.items[0]
      case Null => true
      case Bool(_) => false
      case Number(_) => true
      case Str(s) => IsNumericText(s)
      case Array(_) => ArrayIsNumeric(a.items[0])
      case Object(_) => false
  }

  /** The words `join` writes for `true`, `false` and an object are not
      numbers, and the empty text of `null` or `[]` is 0; these are the
      one-element cases `ArrayIsNumeric` decides without a string. */
  lemma JoinWords(w: string)
    requires w == "true" || w == "false" || w == "[object Object]"
    ensures !IsNumericText(w) && IsNumericText([])
  {
    assert IsTrimmed(w) && w[0] != 'I';
    WordNotNumeric(w);
  }

  /** The id handed to `findByID`, `None` when `isNaN` rejects it: a string
      goes through `parseInt(formId, 10)`; any other value is handed on as
      it is when `Number` of it is a number: always for a number or `true`,
      never for an object, and for an array as `ArrayIsNumeric` says. */
  function ResolveFormId(formId: Value): (r: Option<Value>)
    ensures formId.Str? ==> (r.None? <==> ParseInt(formId.s).None?)
    ensures formId.Str? && ParseInt(formId.s).Some? ==> r == Some(Number(ParseInt(formId.s).value as real))
    ensures !formId.Str? && r.Some? ==> r == Some(formId)
    ensures formId.Number? ==> r == Some(formId)
    ensures formId.Object? ==> r.None?
    ensures formId.Array? ==> (r.Some? <==> ArrayIsNumeric(formId))
  {
    match formId
    case Str(s) =>
      (match ParseInt(s)
       case Some(n) => Some(Number(n as real))
       case None => None)
    case Object(_) => None
    case Array(_) => if ArrayIsNumeric(formId) then Some(formId) else None
    case _ => Some(formId)
  }

  /** A string id is read up to its first non-digit. */
  lemma ResolveFormIdPrefix(ws: string, n: nat, rest: string)
    requires AllSpace(ws)
    requires rest == [] || !IsDigit(rest[0])
    ensures ResolveFormId(Str(ws + Decimal(n) + rest)) == Some(Number(n as real))
  {
    ParseIntLeadingNumber(ws, n, rest);
  }

  /** A signed or zero-padded string id is read as `parseInt` reads it:
      white space, a sign and digits, with the rest ignored. */
  lemma ResolveFormIdSigned(ws: string, sign: string, ds: string, rest: string)
    requires AllSpace(ws) && IsSignPrefix(sign)
    requires ds != [] && AllDigits(ds)
    requires rest == [] || !IsDigit(rest[0])
    ensures ResolveFormId(Str(ws + sign + ds + rest)) ==
            Some(Number(Signed(sign, DigitsValue(ds)) as real))
  {
    ParseIntReadsPrefix(ws, sign, ds, rest);
  }

  /** Arrays pass the `isNaN` check exactly as their joined text does: the
      empty array and `[null]` are ids, an array of two or more elements
      never is, and one string element is an id exactly when `Number`
      reads it as a number. */
  lemma ResolveArrayId(items: seq<Value>)
    ensures items == [] ==> ResolveFormId(Array(items)) == Some(Array(items))
    ensures items == [Null] ==> ResolveFormId(Array(items)) == Some(Array(items))
    ensures |items| >= 2 ==> ResolveFormId(Array(items)).None?
    ensures |items| == 1 && items[0].Str? ==>
              (ResolveFormId(Array(items)).Some? <==> IsNumericText(items[0].s))
    ensures |items| == 1 && (items[0].Bool? || items[0].Object?) ==> ResolveFormId(Array(items)).None?
  {
  }

  /** A one-string array whose string is a numeral, signed or not and
      padded with white space, is handed to `findByID` as it is. */
  lemma ResolveArrayOfNumeral(a: string, sign: string, d: string, b: string)
    requires AllSpace(a) && AllSpace(b) && IsSignPrefix(sign)
    requires d != [] && AllDigits(d)
    ensures var id := Array([Str(a + sign + d + b)]);
            ResolveFormId(id) == Some(id)
  {
    NumeralNumeric(a, sign, d, b);
  }

  /** A one-string array whose string holds a comma is rejected. */
  lemma ResolveArrayWithComma(s: string)
    requires ',' in s
    ensures ResolveFormId(Array([Str(s)])).None?
  {
    CommaNotNumeric(s);
  }

  /** The e-mail candidate `key` when its value is a non-empty string. */
  function EmailAt(members: seq<(string, Value)>, key: string): Option<string> {
    match Get(members, key)
    case Some(Str(s)) => if s != "" then Some(s) else None
    case _ => None
  }

  /** The first candidate key, in the order given, that holds a non-empty string. */
  function FirstEmail(members: seq<(string, Value)>, candidates: seq<string>): (r: Option<string>)
    ensures r.None? <==> forall k :: 0 <= k < |candidates| ==> EmailAt(members, candidates[k]).None?
    ensures r.Some? ==> exists k :: 0 <= k < |candidates| && EmailAt(members, candidates[k]) == r &&
                                    forall j :: 0 <= j < k ==> EmailAt(members, candidates[j]).None?
  {
    if candidates == [] then None
    else
      var here := EmailAt(members, candidates[0]);
      if here.Some? then here
      else
        var r := FirstEmail(members, candidates[1..]);
        assert forall k :: 1 <= k < |candidates| ==> candidates[k] == candidates[1..][k - 1];
        r
  }

  /** `submitterEmail`: only a plain object is searched; arrays and scalars
      never yield one. */
  function SubmitterEmail(data: Value): (r: Option<string>)
    ensures !data.Object? ==> r.None?
    ensures r.Some? ==> r.value != ""
    ensures data.Object? ==> r == FirstEmail(data.members, EmailFields)
  {
    if data.Object? then FirstEmail(data.members, EmailFields) else None
  }

  /** A header that is present and not empty (truthy). */
  predicate Present(h: Option<string>) {
    h.Some? && h.value != ""
  }

  /** `forwardedFor || realIp || 'unknown'`. */
  function ChosenAddress(h: Headers): (r: string)
    ensures Present(h.forwardedFor) ==> r == h.forwardedFor.value
    ensures !Present(h.forwardedFor) && Present(h.realIp) ==> r == h.realIp.value
    ensures !Present(h.forwardedFor) && !Present(h.realIp) ==> r == "unknown"
  {
    if Present(h.forwardedFor) then h.forwardedFor.value
    else if Present(h.realIp) then h.realIp.value
    else "unknown"
  }

  /** `ipAddress`: the first comma-separated token of the chosen address,
      trimmed. */
  function ClientIp(h: Headers): (ip: string)
    ensures ',' !in ip
    ensures IsTrimmed(ip)
  {
    Trim(Split(ChosenAddress(h), ',')[0])
  }

  /** The address kept is the chosen header's text before its first comma. */
  lemma ClientIpFirstToken(h: Headers, first: string, rest: string)
    requires ChosenAddress(h) == first + rest
    requires ',' !in first && (rest == [] || rest[0] == ',')
    ensures ClientIp(h) == Trim(first)
  {
    SplitHead(first, rest, ',');
  }

  /** `s.substring(0, limit)`. */
  function Truncate(s: string, limit: nat): (r: string)
    ensures |r| == if |s| <= limit then |s| else limit
    ensures r == s[..|r|]
  {
    if |s| <= limit then s else s[..limit]
  }

  /** `userAgent`: the header, or `'unknown'`, cut to 500 characters. */
  function ClientAgent(h: Headers): (ua: string)
    ensures |ua| <= UserAgentLimit
    ensures Present(h.userAgent) && |h.userAgent.value| <= UserAgentLimit ==> ua == h.userAgent.value
    ensures Present(h.userAgent) ==> ua == h.userAgent.value[..|ua|]
    ensures Present(h.userAgent) && |h.userAgent.value| > UserAgentLimit ==>
              ua == h.userAgent.value[..UserAgentLimit]
    ensures !Present(h.userAgent) ==> ua == "unknown"
  {
    Truncate(if Present(h.userAgent) then h.userAgent.value else "unknown", UserAgentLimit)
  }

  /** Cutting loses only the tail: the stored agent followed by the
      characters past the 500th gives the header back. */
  lemma ClientAgentDropsTail(h: Headers, v: string)
    requires h.userAgent == Some(v) && v != ""
    ensures var ua := ClientAgent(h);
            && ua + v[|ua|..] == v
            && |v[|ua|..]| == if |v| <= UserAgentLimit then 0 else |v| - UserAgentLimit
  {
    var ua := ClientAgent(h);
    assert ua == v[..|ua|];
    assert v[..|ua|] + v[|ua|..] == v;
  }

  /** Members keyed by the decimal index of each element, as object spread
      builds them from an array or a string. */
  function IndexedMembers(items: seq<Value>): (r: seq<(string, Value)>)
    ensures |r| == |items|
    ensures forall i :: 0 <= i < |items| ==> r[i] == (Decimal(i), items[i])
    ensures DistinctKeys(r)
  {
    seq(|items|, i requires 0 <= i < |items| => (Decimal(i), items[i]))
  }

  /** The own enumerable properties `{...data}` copies: an object's members,
      an array's elements or a string's characters under their indices, and
      nothing for other values. */
  function SpreadMembers(data: Value): (r: seq<(string, Value)>)
    ensures data.Object? ==> r == data.members
    ensures data.Array? ==> r == IndexedMembers(data.items)
  {
    match data
    case Object(ms) => ms
    case Array(items) => IndexedMembers(items)
    case Str(s) => IndexedMembers(seq(|s|, i requires 0 <= i < |s| => Str([s[i]])))
    case _ => []
  }

  /** `delete` of every key in `keys`: the members whose key is not one
      of them, in their original order. */
  function WithoutKeys(members: seq<(string, Value)>, keys: set<string>): (r: seq<(string, Value)>)
    ensures |r| <= |members|
    ensures forall i :: 0 <= i < |r| ==> r[i] in members && r[i].0 !in keys
    ensures (forall i :: 0 <= i < |members| ==> members[i].0 !in keys) ==> r == members
  {
    if members == [] then []
    else if members[0].0 in keys then WithoutKeys(members[1..], keys)
    else [members[0]] + WithoutKeys(members[1..], keys)
  }

  /** After the deletion, a deleted key reads as `undefined` and every
      other key reads as before. */
  lemma {:induction false} WithoutKeysGet(members: seq<(string, Value)>, keys: set<string>, key: string)
    ensures Get(WithoutKeys(members, keys), key) == if key in keys then None else Get(members, key)
    decreases |members|
  {
    if members != [] {
      var rest := WithoutKeys(members[1..], keys);
      WithoutKeysGet(members[1..], keys, key);
      assert members == [members[0]] + members[1..];
      GetCons(members[0], members[1..], key);
      if members[0].0 !in keys {
        GetCons(members[0], rest, key);
      }
    }
  }

  /** The deletion keeps keys distinct. */
  lemma {:induction false} WithoutKeysDistinct(members: seq<(string, Value)>, keys: set<string>)
    requires DistinctKeys(members)
    ensures DistinctKeys(WithoutKeys(members, keys))
    decreases |members|
  {
    if members != [] {
      WithoutKeysDistinct(members[1..], keys);
      var rest := WithoutKeys(members[1..], keys);
      if members[0].0 !in keys {
        var r := [members[0]] + rest;
        forall i, j | 0 <= i < j < |r|
          ensures r[i].0 != r[j].0
        {
          if i == 0 {
            assert r[j] in members[1..];
          }
        }
      }
    }
  }

  /** `cleanData`: the spread of `data` without the button keys. */
  function Clean(data: Value): (r: Value)
    ensures r.Object?
    ensures forall i :: 0 <= i < |r.members| ==> r.members[i].0 !in ButtonKeys
  {
    var spread := SpreadMembers(data);
    if data.Array? then
      IndexedMembersKeepButtons(data.items);
      Object(spread)
    else
      Object(WithoutKeys(spread, ButtonKeys))
  }

  /** The stored data is the submitted data without `submit` and `cancel`:
      for an object every other key reads as before; an array becomes an
      object with one member per element under its decimal index; and keys
      stay distinct. */
  lemma CleanKeepsData(data: Value)
    ensures forall key :: key in ButtonKeys ==> Get(Clean(data).members, key).None?
    ensures data.Object? ==>
              forall key :: key !in ButtonKeys ==> Get(Clean(data).members, key) == Get(data.members, key)
    ensures data.Array? ==> |Clean(data).members| == |data.items|
    ensures data.Array? ==>
              forall i :: 0 <= i < |data.items| ==> Get(Clean(data).members, Decimal(i)) == Some(data.items[i])
    ensures !data.Object? || DistinctKeys(data.members) ==> DistinctKeys(Clean(data).members)
  {
    var spread := SpreadMembers(data);
    var r := Clean(data);
    forall key
      ensures Get(WithoutKeys(spread, ButtonKeys), key) == if key in ButtonKeys then None else Get(spread, key)
    {
      WithoutKeysGet(spread, ButtonKeys, key);
    }
    if data.Array? {
      IndexedMembersKeepButtons(data.items);
    } else if data.Object? {
      if DistinctKeys(data.members) {
        WithoutKeysDistinct(spread, ButtonKeys);
      }
    } else {
      WithoutKeysDistinct(spread, ButtonKeys);
    }
  }

  /** Index keys are never button keys, so deleting those leaves an
      array's spread as it is, and each element is found under its index. */
  lemma IndexedMembersKeepButtons(items: seq<Value>)
    ensures WithoutKeys(IndexedMembers(items), ButtonKeys) == IndexedMembers(items)
    ensures forall i :: 0 <= i < |items| ==> Get(IndexedMembers(items), Decimal(i)) == Some(items[i])
  {
    var spread := IndexedMembers(items);
    forall i | 0 <= i < |spread|
      ensures spread[i].0 !in ButtonKeys
    {
      assert spread[i].0 == Decimal(i);
      assert AllDigits(Decimal(i));
      assert !IsDigit('s') && !IsDigit('c');
    }
    forall i | 0 <= i < |items|
      ensures Get(spread, Decimal(i)) == Some(items[i])
    {
      GetDistinct(spread, i);
    }
  }

  /** The `POST` handler. `ready` is false when `getPayload` throws, which
      happens before the body is read; `body` is `None` when
      `request.json()` fails. */
  function Post(ready: bool, body: Option<Value>, headers: Headers, lookup: Lookup, creation: Creation): (h: Handled)
  {
    if !ready || body.None? || body.value.Null? then
      Handled(None, None, ErrorReply(500, FailureMessage))
    else
      var formId := Field(body.value, "formId");
      var data := Field(body.value, "data");
      if !IsTruthy(formId) || !IsTruthy(data) then
        Handled(None, None, ErrorReply(400, MissingMessage))
      else
        match ResolveFormId(formId.value)
        case None => Handled(None, None, ErrorReply(400, InvalidIdMessage))
        case Some(id) =>
          match lookup
          case LookupThrows => Handled(Some(id), None, ErrorReply(500, FailureMessage))
          case NotFound => Handled(Some(id), None, ErrorReply(404, NotFoundMessage))
          case Found(status) =>
            if status != Published then
              Handled(Some(id), None, ErrorReply(400, NotAvailableMessage))
            else
              var record := Submission(
                id, Clean(data.value), SubmitterEmail(data.value), ClientIp(headers), ClientAgent(headers));
              match creation
              case CreateThrows => Handled(Some(id), None, ErrorReply(500, FailureMessage))
              case Created(sid) =>
                Handled(Some(id), Some(record), SuccessReply(sid))
  }

  /** The request passes the two checks that need no lookup. */
  predicate WellFormedRequest(body: Option<Value>) {
    && body.Some? && !body.value.Null?
    && IsTruthy(Field(body.value, "formId"))
    && IsTruthy(Field(body.value, "data"))
    && ResolveFormId(Field(body.value, "formId").value).Some?
  }

  /** Without a store every request, well formed or not, fails with the
      generic 500 reply, and nothing is looked up or stored. */
  lemma PostWithoutStore(body: Option<Value>, headers: Headers, lookup: Lookup, creation: Creation)
    ensures Post(false, body, headers, lookup, creation) ==
            Handled(None, None, ErrorReply(500, FailureMessage))
  {
  }

  /** A missing or unreadable id is answered before `findByID` is called:
      nothing is looked up, nothing is stored, and the answer is the same
      whatever `findByID` and `create` would have done. */
  lemma PostRejectsBeforeLookup(ready: bool, body: Option<Value>, headers: Headers,
                                lookup1: Lookup, creation1: Creation,
                                lookup2: Lookup, creation2: Creation)
    requires !WellFormedRequest(body)
    ensures Post(ready, body, headers, lookup1, creation1) == Post(ready, body, headers, lookup2, creation2)
    ensures var h := Post(ready, body, headers, lookup1, creation1);
            h.lookedUp.None? && h.created.None? && h.reply.status in {400, 500}
  {
  }

  /** Once the store is up, missing parameters win over every later
      check. */
  lemma PostMissingParameters(body: Value, headers: Headers, lookup: Lookup, creation: Creation)
    requires !body.Null?
    requires !IsTruthy(Field(body, "formId")) || !IsTruthy(Field(body, "data"))
    ensures Post(true, Some(body), headers, lookup, creation) ==
            Handled(None, None, ErrorReply(400, MissingMessage))
  {
  }

  /** A string id with no leading number is rejected as invalid. */
  lemma PostInvalidId(body: Value, headers: Headers, lookup: Lookup, creation: Creation)
    requires body.Object? && Field(body, "formId").Some? && Field(body, "formId").value.Str?
    requires IsTruthy(Field(body, "formId")) && IsTruthy(Field(body, "data"))
    requires !StartsWithNumber(TrimStart(Field(body, "formId").value.s))
    ensures Post(true, Some(body), headers, lookup, creation) ==
            Handled(None, None, ErrorReply(400, InvalidIdMessage))
  {
  }

  /** Once the store is up and the request is well formed, the store
      decides in order: a lookup
      failure is a 500, a missing form a 404, a draft form a 400, and only a
      published form reaches `create`. */
  lemma PostLookupOrder(body: Option<Value>, headers: Headers, lookup: Lookup, creation: Creation)
    requires WellFormedRequest(body)
    ensures var h := Post(true, body, headers, lookup, creation);
            && h.lookedUp == ResolveFormId(Field(body.value, "formId").value)
            && (lookup.LookupThrows? ==> h.reply == ErrorReply(500, FailureMessage))
            && (lookup.NotFound? ==> h.reply == ErrorReply(404, NotFoundMessage))
            && (lookup == Found(Draft) ==> h.reply == ErrorReply(400, NotAvailableMessage))
            && (lookup != Found(Published) ==> h.created.None?)
  {
  }

  /** A record is stored exactly when the store is up, every check passes
      and `create` returns. */
  lemma PostStoresOnlyValid(ready: bool, body: Option<Value>, headers: Headers, lookup: Lookup, creation: Creation)
    ensures Post(ready, body, headers, lookup, creation).created.Some? <==>
            ready && WellFormedRequest(body) && lookup == Found(Published) && creation.Created?
  {
  }

  /** The stored record carries the resolved id, the cleaned data, the
      submitter e-mail and the derived metadata, and the reply reports
      success with the new record's id. */
  lemma PostStoredRecord(body: Option<Value>, headers: Headers, lookup: Lookup, creation: Creation)
    requires WellFormedRequest(body) && lookup == Found(Published) && creation.Created?
    ensures var h := Post(true, body, headers, lookup, creation);
            var data := Field(body.value, "data").value;
            && h.created == Some(Submission(
                 ResolveFormId(Field(body.value, "formId").value).value,
                 Clean(data), SubmitterEmail(data), ClientIp(headers), ClientAgent(headers)))
            && h.reply == SuccessReply(creation.id)
  {
  }

  /** Every reply without a stored record is an error status whose `error`
      member is one of the fixed messages. */
  lemma PostFailureReply(ready: bool, body: Option<Value>, headers: Headers, lookup: Lookup, creation: Creation)
    requires Post(ready, body, headers, lookup, creation).created.None?
    ensures var h := Post(ready, body, headers, lookup, creation);
            && h.reply.status in {400, 404, 500}
            && Field(h.reply.body, "error").Some?
            && Field(h.reply.body, "error").value.Str?
            && Field(h.reply.body, "error").value.s in ErrorMessages
  {
    if !ready {
      PostWithoutStore(body, headers, lookup, creation);
    } else if WellFormedRequest(body) {
      PostLookupOrder(body, headers, lookup, creation);
    } else {
      PostRejectsBeforeLookup(ready, body, headers, lookup, creation, lookup, creation);
    }
  }

  /** The CORS preflight reply. */
  datatype Preflight = Preflight(status: nat, headers: seq<(string, string)>)

  function HeaderValue(headers: seq<(string, string)>, name: string): Option<string> {
    if headers == [] then None
    else if headers[0].0 == name then Some(headers[0].1)
    else HeaderValue(headers[1..], name)
  }

  /** The allowed methods, read as a comma-separated list of trimmed
      names; empty when the header is absent. */
  function AllowedMethods(p: Preflight): seq<string> {
    match HeaderValue(p.headers, "Access-Control-Allow-Methods")
    case None => []
    case Some(v) => MethodList(v)
  }

  /** The trimmed parts of a comma-separated header value. */
  function MethodList(v: string): seq<string> {
    TrimAll(Split(v, ','))
  }

  function TrimAll(parts: seq<string>): (r: seq<string>)
    ensures |r| == |parts|
    ensures forall i :: 0 <= i < |parts| ==> r[i] == Trim(parts[i])
  {
    seq(|parts|, i requires 0 <= i < |parts| => Trim(parts[i]))
  }

  /** `verb` appears in the comma-separated list of allowed methods. */
  predicate AllowsMethod(p: Preflight, verb: string) {
    var allowed := HeaderValue(p.headers, "Access-Control-Allow-Methods");
    allowed.Some? &&
    exists part :: part in Split(allowed.value, ',') && Trim(part) == verb
  }

  /** The `OPTIONS` handler. */
  function Options(): (p: Preflight)
    ensures p.status == 200
    ensures HeaderValue(p.headers, "Access-Control-Allow-Origin") == Some("*")
    ensures HeaderValue(p.headers, "Access-Control-Allow-Headers") == Some("Content-Type")
  {
    Preflight(200, [
      ("Access-Control-Allow-Origin", "*"),
      ("Access-Control-Allow-Methods", "POST, OPTIONS"),
      ("Access-Control-Allow-Headers", "Content-Type")])
  }

  /** Read as a comma-separated list, the allowed methods are exactly
      `POST` and `OPTIONS`, in that order. */
  lemma OptionsAllowsPost()
    ensures AllowsMethod(Options(), "POST") && AllowsMethod(Options(), "OPTIONS")
    ensures AllowedMethods(Options()) == ["POST", "OPTIONS"]
  {
    OptionsMethodsHeader();
    var post, options := "POST", "OPTIONS";
    assert "POST, OPTIONS" == post + ", " + options;
    assert IsTrimmed(post) && IsTrimmed(options);
    TwoMethodsAllowed(Options(), post, options);
    TwoMethodsListed(post, options);
  }

  /** A header listing two trimmed, comma-free verbs as `a, b` allows
      both. */
  lemma TwoMethodsAllowed(p: Preflight, a: string, b: string)
    requires HeaderValue(p.headers, "Access-Control-Allow-Methods") == Some(a + ", " + b)
    requires ',' !in a && ',' !in b && ' ' !in a
    requires IsTrimmed(a) && IsTrimmed(b) && b != []
    ensures AllowsMethod(p, a) && AllowsMethod(p, b)
  {
    var parts := [a, " " + b];
    assert ',' !in " " + b;
    assert Join(parts, [',']) == a + ", " + b;
    SplitJoin(parts, ',');
    TrimOfTrimmed(a);
    TrimUnique(" ", b, "");
    assert " " + b + "" == " " + b;
    assert AllowsMethod(p, a) by {
      assert parts[0] in Split(a + ", " + b, ',');
    }
    assert parts[1] in Split(a + ", " + b, ',');
  }

  /** Read as a list, `a, b` names exactly `a` and then `b`. */
  lemma TwoMethodsListed(a: string, b: string)
    requires ',' !in a && ',' !in b
    requires IsTrimmed(a) && IsTrimmed(b) && b != []
    ensures MethodList(a + ", " + b) == [a, b]
  {
    SplitTwo(a, b);
    TrimPair(a, b);
  }

  /** Trimming `a` and ` b` gives `a` and `b` back. */
  lemma TrimPair(a: string, b: string)
    requires IsTrimmed(a) && IsTrimmed(b) && b != []
    ensures TrimAll([a, " " + b]) == [a, b]
  {
    TrimOfTrimmed(a);
    TrimUnique(" ", b, "");
    assert " " + b + "" == " " + b;
    var listed := TrimAll([a, " " + b]);
    assert listed[0] == a && listed[1] == b;
  }

  /** Splitting `a, b` at the comma. */
  lemma SplitTwo(a: string, b: string)
    requires ',' !in a && ',' !in b
    ensures Split(a + ", " + b, ',') == [a, " " + b]
  {
    var parts := [a, " " + b];
    assert ',' !in " " + b;
    assert Join(parts, [',']) == a + ", " + b;
    SplitJoin(parts, ',');
  }

  lemma OptionsMethodsHeader()
    ensures HeaderValue(Options().headers, "Access-Control-Allow-Methods") == Some("POST, OPTIONS")
  {
    var hs := Options().headers;
    assert hs[0].0 != "Access-Control-Allow-Methods";
    assert hs[1..][0].0 == "Access-Control-Allow-Methods";
  }
}
